=== FILE: README.md ===
# ImageMosaicFilter, modelled in Dafny

ImageMosaicFilter is a browser page that loads a picture into a canvas and
redraws it with one of ten effects:

- a block mosaic;
- blur;
- drop shadow;
- seven CSS filters: brightness, contrast, grayscale, hue-rotate, invert, opacity and saturate.

This project models the page's effect engine and proves properties of the model:

- **`effects.js`**: the mosaic's per-block average colour, the block grid of a mosaic pass, the pass itself, its frame-yield counter, and the two flags that cancel and restart passes. Also the guards, clear decisions and canvas geometry of every effect.
- **`common.js`**: the `ShowImage` canvas holder, `isImageURL`, and the rule that binds a slider to its text box.
- **`script.js`**: the effect registry, `drawEffect` / `drawLastEffect` and the remembered last effect, the parameter panels, and the redraws after a radio change and an image load.

Modules, one per file:

| module | models |
|---|---|
| `Arith` | division and multiplication facts used by the proofs |
| `Color` | RGBA pixels and the flat byte buffer `getImageData` returns |
| `Average` | `_calculateAverageColor`, including `Math.round(t / n)`, which equals `(2t + n) / (2n)` in integer division |
| `Tiling` | the blocks the nested loops visit, clipped at the right and bottom edges |
| `Mosaic` | a reference mosaic (each pixel takes its block's average), and the in-place loop proved equal to it |
| `YieldCounter` | the pixel counter that makes a pass wait for the next animation frame |
| `Numbers` | numbers as `parseInt` / `parseFloat` deliver them: `NaN` or an exact real |
| `Surface` | the visible canvas: size, scale, image size, readiness, and the drawing calls since the last clear |
| `Effects` | each effect's `drawEffect` as the canvas calls it makes |
| `Controller` | `_isRunningDraw` / `_isRequestedCancel` as a state machine over atomic events |
| `Registry` | `EFFECTS`, `EFFECT_FUNCTIONS`, `lastDrawEffect`, `showEffectParameters` and the UI redraws |
| `Inputs` | `isImageURL` and `setupSliderAndTextInput` |

`Controller` has two variants:

- `AsWritten` follows the code.
- `Corrected` also clears `_isRunningDraw` on the early return for an image that is not showable. The `## Findings` section says why.

Three behaviours of the code the model follows:

- **Plain-image branch.** The plain image is drawn for any block size in `(0, 1]`, not only for exactly 1, because the code tests `blockSize > 1`.
- **Clearing for blur and drop shadow.** Both effects always assign `canvas.width` and `canvas.height`, and that assignment resets the bitmap. So both start from a blank canvas whether or not the spread is positive.
- **`isOverlap`.** No caller in `script.js` passes `isOverlap`, so every effect runs with overlap off.

## Model

| member | source | states |
|---|---|---|
| Color.DecodeEncode | effects.js:137-147 | Reading back the byte buffer of a pixel sequence, four channels at a time, gives the same pixels. |
| Color.EncodeDecode | effects.js:137-147 | Every buffer whose length is a multiple of 4 is the layout of exactly the pixels read from it. |
| Color.DecodeAt | effects.js:140-145 | Pixel `i` of a buffer is bytes `4i`, `4i+1`, `4i+2`, `4i+3`, as red, green, blue, alpha. |
| Average.RoundDiv | effects.js:154-157 | The integer `(2t+n)/(2n)` is the nearest integer to `t/n`, ties going up: `q - 1/2 <= t/n < q + 1/2`, as `Math.round` gives. |
| Average.RoundDivWithin | effects.js:154-157 | A rounded mean of values in `lo..hi` is itself in `lo..hi`. |
| Average.SumBounds | effects.js:140-148 | If every counted channel value is in `lo..hi`, the total lies between `lo` and `hi` times the count. |
| Average.AverageColor | effects.js:150-158 | A block with no pixel of positive alpha averages to `rgba(0,0,0,0)`. The average's alpha is positive exactly when some pixel's alpha is. |
| Average.AverageIsRoundedMean | effects.js:154-157 | Each channel of a non-empty average is within 1/2 of the exact mean over the counted pixels. |
| Average.AverageWithin | effects.js:154-158 | Each averaged channel lies between the least and the greatest counted value of that channel, so it is a byte. |
| Average.UniformAverage | effects.js:140-158 | A block of identical pixels averages to that colour if it is visible, and to transparent otherwise. |
| Average.InvisiblePixelIgnored | effects.js:141-147 | Inserting a pixel with alpha 0 anywhere in a block leaves the average unchanged, whatever its colour channels hold. |
| Average.CalculateAverageColor | effects.js:135-160 | The accumulating loop over the byte buffer returns the average colour of the pixels the buffer encodes. |
| Tiling.BlockOf | effects.js:92-95 | Every canvas pixel lies in a block that the loops can visit: its origin is a multiple of the block size, it lies inside the canvas, and it is clipped to `min(b, W-x) x min(b, H-y)`. |
| Tiling.ContainsIff | effects.js:92-95 | A pixel lies in a grid block exactly when that block is the pixel's own block, so grid blocks do not overlap. |
| Tiling.BlocksAreGridBlocks | effects.js:92-95 | The loops visit a block exactly when it is a grid block: nothing is missed and nothing extra is visited. |
| Tiling.Tiles | effects.js:92-95 | The visited blocks have grid origins and clipped sizes, lie inside the canvas, come in row-major order, are pairwise disjoint, and cover every pixel. |
| Tiling.BlockCount | effects.js:92-93 | One pass visits `ceil(W/b) * ceil(H/b)` blocks. |
| Tiling.DividingBlockSize | effects.js:92-95 | When `b` divides both sides there are `(W/b)*(H/b)` blocks, all of them full `b x b`. |
| Tiling.EvenSplitCount | effects.js:92-95 | A 100x100 canvas with block size 10 is split into 100 blocks. |
| Tiling.EvenSplitSizes | effects.js:94-95 | Each of those blocks is a full 10x10 block. |
| Tiling.ClippedSplitScenario | effects.js:92-95 | A 20x20 canvas with block size 7 gives 9 blocks. The last column and the last row are clipped to 6 pixels. |
| Mosaic.Fill | effects.js:98-101 | Clearing and filling a block sets exactly that block's pixels to the colour and leaves every other pixel alone. |
| Mosaic.MosaicBlocks | effects.js:92-101 | In the mosaic, every pixel of a visited block holds that block's average colour in the source. |
| Mosaic.MosaicIdempotent | effects.js:92-101 | A mosaic is uniform on each block, so a second pass with the same block size changes nothing. |
| Mosaic.UnitBlocksKeepImage | effects.js:78-130 | With block size 1 the block algorithm reproduces the image, once invisible pixels read as `(0,0,0,0)`. So the plain drawing the code uses instead for size 1 agrees with it. |
| Mosaic.MosaicPass | effects.js:92-110 | The in-place loop produces the reference mosaic. It reads each block from the work canvas it is filling, then averages and fills it; the reads still see source pixels because the blocks are disjoint. |
| Mosaic.MosaicRow | effects.js:93-109 | One pass of the inner loop turns a canvas whose rows above `y` hold the mosaic into one whose rows up to `y + blockSize` do, leaving the rest as the source. |
| Mosaic.BlockStep | effects.js:94-101 | Averaging one block's RGBA buffer and filling that block extends the finished region by exactly that block. |
| YieldCounter.CountYields | effects.js:88-108 | Frames times 5000 plus the final counter equals the pixel units added: the threshold is subtracted, not the counter zeroed. With `b*b <= 5000` the counter never exceeds 5000 and the frame count is `(total-1)/5000`. With `b*b > 5000` the pass yields after every block. |
| Surface.NewShowImage | common.js:6-12 | A new `ShowImage` is not showable, has scale 1 and an empty image, and shows nothing. |
| Surface.ClearArea | common.js:14-16 | `clearRect()` clears the logical rectangle at the origin of size `canvas.width/scale x canvas.height/scale`, which is the whole canvas under the scale transform. |
| Surface.ScaleCanvas | script.js:249-254 | `scaleCanvas` makes the canvas the image size times the scale on both axes and leaves it blank. |
| Surface.ScaledClearArea | common.js:14-16 | After `scaleCanvas`, `clearRect()` clears exactly the image's logical area. |
| Effects.SimplePlan | effects.js:219-231 | A simple filter skips exactly when the image is not showable or the parameter is NaN or negative. Otherwise it clears exactly when overlap is off. |
| Effects.DrawSimple | effects.js:219-236 | A skipped filter changes nothing. Otherwise the canvas shows the filtered image at the origin, on top of earlier drawing only with overlap on, and its size and scale are unchanged. |
| Effects.SimpleNoStacking | effects.js:228-235 | Without overlap, a simple filter's result does not depend on what was drawn before. |
| Effects.SimpleOverlapKeeps | effects.js:228-235 | With overlap, everything drawn before stays, and exactly one image is added on top. |
| Effects.BlurSpread | effects.js:187 | The blur spread times the scale is `2.5 * size` with scaling on. With scaling off it is 0. It is non-negative for a non-negative size. |
| Effects.BlurLayout | effects.js:187-207 | The image is drawn at `(spread, spread)`, and the image plus a spread on each side spans the blur canvas exactly. |
| Effects.DrawBlur | effects.js:178-208 | A blur on an image that is not showable, or with a NaN or negative size, changes nothing. |
| Effects.BlurGeometry | effects.js:187-207 | In device pixels, the blur canvas is the scaled image plus `5 * size` per axis with scaling on, whatever the scale, and the scaled image with scaling off. It holds the one blurred image drawn at the spread. |
| Effects.BlurIgnoresOverlap | effects.js:194-203 | Blur with overlap on gives the same canvas as blur with overlap off, from any earlier drawing. |
| Effects.ShadowSpread | effects.js:291 | The drop-shadow spread times the scale is `2.5 * radius`, and it is non-negative for a non-negative radius. |
| Effects.ShadowAxisIsBoundingBox | effects.js:293-314 | Along each axis the canvas is exactly the bounding interval of the image and its spread-widened shadow, and the draw position `max(spread - offset, 0)` is non-negative. |
| Effects.DrawDropShadow | effects.js:277-315 | A drop shadow on an image that is not showable, with a NaN offset, or with a NaN or negative radius, changes nothing. |
| Effects.DropShadowGeometry | effects.js:291-314 | The canvas is the layout scaled to device pixels, and the draw position is non-negative. The shadowed image is the only thing on the canvas, whatever `isOverlap` says. |
| Effects.DropShadowIgnoresOverlap | effects.js:303-310 | The drop shadow always starts from a blank canvas: overlap on and off give the same result, from any earlier drawing. |
| Effects.PlanMosaic | effects.js:67-78 | Outcomes of the checks at the top of the mosaic's `drawEffect`: an image that is not showable returns; a NaN or non-positive block size is rejected; a size above 1 runs the block pass; anything else draws the plain image. Each is stated as an if-and-only-if. |
| Effects.DrawPlainMosaic | effects.js:124-130 | The small-block-size branch leaves only the unfiltered image on the cleared canvas. |
| Controller.Init | effects.js:22-30 | A new mosaic effect has no pass running and no request made, and has written nothing. |
| Controller.EmptyCanvasNeverCommits | effects.js:112-121 | A pass over a work canvas with a zero side has no blocks. Its `getImageData` throws, so the pass ends in the catch block with the flag cleared and nothing written, in both variants. |
| Controller.Continue | effects.js:92-122 | A pass that re-enters its loop: if it parks, it parks under its own id and writes nothing; if it stops, running is cleared; it writes only when cancel was clear, and then only its own commit. A cancel seen at the frame boundary always ends it without writing, and so does a segment that throws, which runs the catch block. With no blocks left, for instance after the frame it awaited following its last block, it commits exactly when cancel is clear. |
| Controller.FinalFrameCommits | effects.js:92-116 | A pass whose frame counter is over 5000 after its last block parks with nothing left, and it commits at the next frame if nothing intervenes. |
| Controller.FinalFrameCancelled | effects.js:32-116 | A newer request during the frame a pass awaits after its last block cancels that pass. It never commits, and only the newer request's pass reaches the canvas. |
| Controller.Step | effects.js:32-64 | Every event keeps the controller invariant: a parked pass is the newest and running is set, waiting requests are real, and in the corrected variant running holds exactly while a pass is parked. |
| Controller.WritesOnlyByNewest | effects.js:112-116 | An event appends at most one write and never alters earlier ones. A write comes from the newest pass, which then has running and cancel cleared. |
| Controller.CancelledPassNeverCommits | effects.js:92-116 | A parked pass that finds cancel set at its frame boundary ends with running cleared and writes nothing. |
| Controller.ThrowingSegmentNeverCommits | effects.js:92-121 | A parked pass whose next segment throws ends in the catch block: running is cleared and nothing is written, in both variants. |
| Controller.SupersededNeverCommits | effects.js:32-41 | After any sequence of events, a pass older than the newest one never writes to the visible canvas. |
| Controller.StartLeavesFlagIff | effects.js:67-131 | A started pass that ends before its first frame boundary leaves running set exactly in the as-written variant on an image that is not showable. Every other exit clears it. |
| Controller.ResumeExitClearsFlag | effects.js:113-131 | Every way a resumed pass ends (cancel, throw or commit) clears the running flag, in both variants. |
| Controller.CorrectedWaitingRequestStarts | effects.js:51-64 | Corrected: once the parked pass finishes, a waiting request's next poll starts a new pass. |
| Controller.StuckStep | effects.js:51-64 | As written, a state with running set and no pass parked stays that way under every event: no pass starts and nothing is written. |
| Controller.StuckForever | effects.js:51-64 | The same holds for every sequence of events. |
| Controller.EarlyRequestBlocksMosaic | effects.js:69 | As written, after a mosaic request made before any image is showable, no sequence of events ever puts a mosaic on the canvas. |
| Controller.CorrectedNeverStuck | effects.js:69-131 | Corrected: the running flag is never set without a pass that will clear it. |
| Controller.CorrectedIdleRequestCommits | effects.js:32-41 | Corrected: with no pass running, a request on a showable image with block size above 1 and a non-empty work canvas starts a pass and commits it. |
| Controller.CorrectedDrain | effects.js:105-131 | Corrected: a frame that lets the parked pass finish leaves no pass running. |
| Controller.CorrectedRequestRenders | effects.js:32-131 | Corrected, from any reachable state: finish the parked pass, make the image showable, set a block size above 1 and request a pass over a non-empty work canvas. The canvas then ends with the new pass's result. |
| Controller.CorrectedShowThenRequest | effects.js:32-41 | Corrected, with no pass running: showing an image, setting the block size and requesting a pass over a non-empty work canvas commits the new pass. |
| Controller.SliderBeforeLoad | effects.js:69 | For the sequence request, load, request (over a non-empty image): as written the canvas gets nothing; corrected it gets the second pass. |
| Registry.Lookup | script.js:42-53 | A key resolves to an effect only if it is that effect's name. |
| Registry.LookupName | script.js:7-18 | Every effect is registered under its own name. |
| Registry.NameInjective | script.js:7-18 | The ten names are distinct: names and effects correspond one to one. |
| Registry.DrawEffect | script.js:281-296 | `drawEffect` invokes a function exactly when the key is registered. An unknown key alerts and leaves the last effect unchanged. |
| Registry.DrawEffectRegistered | script.js:281-290 | A registered key becomes the last effect before its function runs. It alerts only when that function throws synchronously, which the async mosaic entry never does. |
| Registry.DrawLastEffect | script.js:274-278 | `drawLastEffect` redraws the remembered effect and keeps it remembered. |
| Registry.PageLastStaysRegistered | script.js:56 | The initial last effect is the registered mosaic, and after any sequence of selections the remembered key is still registered, so redrawing it never alerts. |
| Registry.LastStaysRegistered | script.js:274-287 | A registered last effect stays registered after any keys, so redrawing it never alerts. |
| Registry.LastIsLatestRegistered | script.js:281-286 | After any history of keys, the last effect is the most recent registered key. |
| Registry.UnknownKeysKeepLast | script.js:292-295 | Unknown keys never change the last effect. |
| Registry.ShowEffectParameters | script.js:263-271 | `showEffectParameters` sets only existing panels, each to whether it is the selected one, and leaves all other entries as they were. |
| Registry.OnePanelShown | script.js:263-271 | Selecting an effect whose panel exists shows that panel and hides every other one. |
| Registry.Apply | script.js:42-53 | Invoking an effect never changes the scale, the image or readiness. |
| Registry.ApplyDrawsOnce | script.js:42-53 | An effect either leaves the canvas as it was (nothing showable, a rejected parameter, or the mosaic's async entry) or leaves exactly one image on it, drawn with its own filter. |
| Registry.NoStacking | script.js:196-201 | A drawing effect's result does not depend on what the canvas showed before, so switching effects never stacks them. |
| Registry.SelectEffect | script.js:195-202 | A radio change for a registered effect makes it the last effect and leaves the canvas at the scaled image size, unless blur or drop shadow lay it out. The canvas then holds that effect's one image with its filter, or nothing when the image is not showable or the parameters are rejected. An unknown key, and only an unknown key, alerts and leaves the rescaled canvas blank. |
| Registry.SelectShowsOnlySelected | script.js:195-202 | After selecting an effect, the last effect is that effect. The canvas has the scaled image's size, except for blur and drop shadow, and shows that effect's single image or nothing. |
| Registry.ImageLoaded | script.js:137-142 | After `onload` the image is showable and has its new size. |
| Registry.LoadShowsLastEffect | script.js:137-142 | A freshly loaded image redraws the last effect without an alert, for every effect including the initial mosaic. An effect whose parameters are accepted shows its one image with its filter at once. Otherwise the canvas is the blank, rescaled image area; for the mosaic, the block pass writes it later. |
| Registry.NothingBeforeLoad | common.js:6-12 | Before any image loads, no effect changes the new canvas. |
| Inputs.IsImageURLMatchesPattern | common.js:20-23 | The extension check holds exactly when the string ends with a dot and one of jpg, jpeg, png, gif, bmp or svg, in any letter case. |
| Inputs.CaseInsensitive | common.js:21 | Upper-casing a URL does not change the verdict. |
| Inputs.TrailingNonLetterRejected | common.js:21 | The match is anchored at the end. A URL whose last character is not a letter, such as one ending in a query value or a slash, is rejected. |
| Inputs.DotRequired | common.js:21 | A bare extension without a dot is rejected. |
| Inputs.Bind | common.js:36-37 | Setup copies the slider's value to the text box and to the model. |
| Inputs.SliderInput | common.js:40-44 | Moving the slider copies its value to the text box and the model and fires the redraw once. |
| Inputs.TextInput | common.js:47-54 | Typing always leaves the typed text in the box. |
| Inputs.TextInputRule | common.js:47-53 | Typed text takes effect exactly when the parsed value is not NaN and lies within the parsed bounds. Then slider and model hold it and the redraw fires once; otherwise slider, model and redraw count are untouched. |
| Inputs.SyncedKept | common.js:36-54 | The slider and the model value never disagree, whatever the user does. |
| Inputs.NaNBoundRejects | common.js:49 | A NaN bound rejects every typed value. |

## Left out

- **DOM, I/O and event registration.**
  - Left out: file input, drag and drop, paste, object URLs, the download button, dark mode, and the checkbox and colour-picker setup.
  - Reason: they are I/O plumbing.
  - The blur checkbox and the colour picker appear only as the values they deliver in `Registry.Params`.
- **Rendering calls.** The pixels produced by CSS filters, `drawImage` resampling and `putImageData` are not modelled, because they are foreign rendering calls.
  - An effect is modelled as the calls it makes.
  - The mosaic works on the device-pixel raster the plain drawing produced.
- **Timers.** `setTimeout` and `requestAnimationFrame` become `Poll` and `Resume` events, because real time cannot be stated. How many blocks a segment processes, whether a block throws, and whether the frame counter (over 5000 after the last block) makes the pass await one more frame before it commits, are event parameters. `YieldCounter.CountYields` gives the counter's actual schedule. `Controller` does not tie segments to it, so it allows every schedule, the source's included.
- **Poll order.** Waiting requests may be polled in any order, so an older request can start after a newer one. A running pass re-reads `blockSize` and `showImage.scale` at every block step (effects.js:92-101), so it does not fix its parameters when it starts. The order does not matter for another reason. Every block-size change calls `setValue` and then `drawEffectAsync` (script.js:215), and `drawEffectAsync` sets the cancel flag before it waits (effects.js:34). A pass running during a change therefore stops without committing. Any pass that starts after the change reads the new block size, whichever waiting request started it. The model keeps the block size in the controller state rather than per pass.
- **The mosaic controller and the synchronous effects are separate models.** Two interactions are therefore not modelled:
  - a parked block pass can still commit over a synchronous effect drawn after it started;
  - a pass can commit after `scaleCanvas` has resized the visible canvas.
- **The colour string.** The rgba colour string with alpha as `avg/255` is not modelled.
  - `Average.AverageColor` keeps alpha as the rounded byte.
  - The canvas's premultiplied-alpha storage is assumed to read a filled colour back exactly.
- **Canvas sizes.** The browser truncates a non-integer `canvas.width` to an integer; geometry stays in exact reals.
- **`Mosaic.MosaicPass`** works in device pixels, without the `scale` transform on the work canvas and without cancellation. Cancellation is the business of `Controller`.
- **`Controller.Continue`** records a commit as `Committed(pass)` and does not carry the pixels. They are given by `Mosaic.MosaicPass`.
- **Numbers.**
  - `Num` has no infinities, so a typed `Infinity` is not modelled.
  - Range inputs snap values to their `step`, and this is not modelled either: `Inputs.TextInput` hands the model the parsed value itself.
  - The parse function is a parameter: `parsed`, `min` and `max` are what it returned.
- **Canvas scale.** All canvas functions require `scale > 0`. The scale slider's bounds live in the page markup, which is not part of this model.
- **`Registry.Lookup`** resolves only the ten own keys of `EFFECT_FUNCTIONS`. Inherited property names such as `toString` would also be truthy there, but no radio value or remembered key can be one.
- Registry.SelectEffect: takes the synchronous effects not to throw. A synchronous effect that threw part-way would leave whatever it had drawn, followed by the alert at script.js:287-290; `DrawEffect` and `DrawEffectRegistered` model that alert, but the canvas state after such a throw is not modelled.
- **`Registry.ImageLoaded`** does not model an exception inside `onload` or its alert. It also does not model `onerror`; in `Controller` that is a `SetShowable(false)` event.
- **The scale slider and the reset button.** Their handlers are `scaleCanvas` followed by `drawLastEffect`. They are covered by `Surface.ScaleCanvas` and `Registry.DrawLastEffect`, not by a member of their own.
- **URL loading.** `isImageURL` is modelled, but `isCanProcessImageURL` is `false`, so the page never loads a dropped or pasted URL.
- **A zero-size work canvas.** `getImageData` throws on a canvas with a zero dimension. `Controller` models this as a block pass started with no blocks: it ends with the flag cleared and writes nothing (`Controller.EmptyCanvasNeverCommits`). The alert raised in the catch block is not modelled.

## Findings

| source | as written | input that shows it | evidently intended | confidence | as-written member | corrected member |
|---|---|---|---|---|---|---|
| effects.js:69 | The early return for an image that is not showable does not clear `_isRunningDraw`. `drawEffectAsync` set that flag at line 38, and every later request's poll (lines 53-60) waits for it to clear. | Move the mosaic slider, or select the mosaic radio button, before any image has loaded; then load an image. The mosaic never appears, and no later request starts a pass. | Every exit of `drawEffect` clears `_isRunningDraw`, as the invalid-block-size return (line 73) and the end of the method (line 131) do. | high; not executed | Controller.EarlyRequestBlocksMosaic | Controller.CorrectedRequestRenders |

=== FILE: arith.dfy ===
/** Facts about Euclidean division and multiplication by a positive number. */
module Arith {

  lemma DivMul(p: nat, b: nat)
    requires b > 0
    ensures (p / b) * b <= p < (p / b) * b + b
    ensures ((p / b) * b) % b == 0
  {
    MulMod(p / b, b);
  }

  lemma MulMod(q: nat, b: nat)
    requires b > 0
    ensures (q * b) % b == 0 && (q * b) / b == q
  {
    DivUnique(q * b, b, q, 0);
  }

  /** `p = q*b + r` with `0 <= r < b` determines quotient and remainder. */
  lemma DivUnique(p: int, b: int, q: int, r: int)
    requires b > 0 && 0 <= r < b && p == q * b + r
    ensures p / b == q && p % b == r
  {
    var q', r' := p / b, p % b;
    assert p == q' * b + r' && 0 <= r' < b;
    if q' > q {
      MulGap(q, q', b);
    } else if q' < q {
      MulGap(q', q, b);
    }
  }

  lemma MulSucc(i: int, u: int)
    ensures (i + 1) * u == i * u + u
  {
  }

  lemma MulGap(i: int, j: int, b: int)
    requires i < j && b > 0
    ensures j * b - i * b >= b
  {
    var k := j - i;
    assert j * b - i * b == k * b;
    assert k * b == (k - 1) * b + b;
    assert (k - 1) * b >= 0;
  }

  lemma MulMono(i: int, j: int, b: int)
    requires i <= j && b > 0
    ensures i * b <= j * b
  {
    assert j * b - i * b == (j - i) * b;
  }

  /** Multiplying by a positive number preserves and reflects strict order. */
  lemma MulStrict(i: int, j: int, b: int)
    requires i * b < j * b && b > 0
    ensures i < j
  {
    if i >= j {
      MulMono(j, i, b);
    }
  }

  /** The pixel's block origin: the multiple of `b` at or below it. */
  lemma OriginOf(p: nat, o: nat, b: nat)
    requires b > 0 && o % b == 0 && o <= p < o + b
    ensures (p / b) * b == o
  {
    var q := o / b;
    assert o == q * b;
    DivUnique(p, b, q, p - o);
  }

  /** Between two multiples of `b` there is at least `b`. */
  lemma NextMultiple(a: nat, c: nat, b: nat)
    requires b > 0 && a % b == 0 && c % b == 0 && a < c
    ensures a + b <= c
  {
    var qa, qc := a / b, c / b;
    assert a == qa * b && c == qc * b;
    MulStrict(qa, qc, b);
    MulMono(qa + 1, qc, b);
    assert (qa + 1) * b == qa * b + b;
  }

  lemma ModStep(x: nat, b: nat)
    requires b > 0 && x % b == 0
    ensures (x + b) % b == 0
  {
    var q := x / b;
    assert x == q * b;
    assert x + b == (q + 1) * b;
    MulMod(q + 1, b);
  }
}

=== FILE: average.dfy ===
/**
 * The average colour of one mosaic block (`_calculateAverageColor`): only
 * pixels with a positive alpha are counted, each channel is the rounded mean
 * over the counted pixels, and a block without such a pixel is transparent.
 */
module Average {
  import opened Color
  import opened Arith

  /** The threshold of the `Math.round` half-up rule, as a real. */
  const Half: real := 0.5

  /**
   * `Math.round(t / n)` for a non-negative total and a positive count: the
   * integer nearest to `t / n`, a tie going to the larger one.
   */
  function RoundDiv(t: nat, n: nat): (q: nat)
    requires n > 0
    ensures (q as real) - Half <= (t as real) / (n as real) < (q as real) + Half
  {
    var q := (2 * t + n) / (2 * n);
    RoundDivNearest(t, n, q);
    q
  }

  lemma RoundDivNearest(t: nat, n: nat, q: int)
    requires n > 0 && q == (2 * t + n) / (2 * n)
    ensures (q as real) - Half <= (t as real) / (n as real) < (q as real) + Half
  {
    var k := (2 * t + n) % (2 * n);
    assert 2 * t + n == 2 * n * q + k && 0 <= k < 2 * n;
    assert 2 * n * q <= 2 * t + n < 2 * n * q + 2 * n;
    var tr, nr, qr := t as real, n as real, q as real;
    assert (2 * n * q) as real == 2.0 * nr * qr;
    assert (2 * n * q) as real <= 2.0 * tr + nr < (2 * n * q) as real + 2.0 * nr;
    assert (qr - Half) * nr <= tr < (qr + Half) * nr;
    var d := tr / nr;
    assert d * nr == tr;
    assert (qr - Half) * nr <= d * nr;
    ScaleDown(qr - Half, d, nr);
    assert qr - Half <= d;
    ScaleDown(d, qr + Half, nr);
    assert d < qr + Half;
  }

  /** Dividing both sides of a strict or non-strict inequality by a positive real. */
  lemma ScaleDown(a: real, b: real, n: real)
    requires n > 0.0
    ensures a * n <= b * n ==> a <= b
    ensures a * n < b * n ==> a < b
  {
    if a > b {
      assert (a - b) * n > 0.0;
    }
    if a == b {
      assert a * n == b * n;
    }
  }

  /** Number of pixels with a positive alpha. */
  function CountVisible(px: seq<Rgba>): (n: nat)
    ensures n <= |px|
  {
    if |px| == 0 then 0
    else CountVisible(px[..|px| - 1]) + (if Visible(px[|px| - 1]) then 1 else 0)
  }

  /** Sum of one channel over the pixels with a positive alpha. */
  function SumVisible(px: seq<Rgba>, ch: Channel): nat
  {
    if |px| == 0 then 0
    else SumVisible(px[..|px| - 1], ch) + (if Visible(px[|px| - 1]) then Get(px[|px| - 1], ch) else 0)
  }

  /** True when every counted pixel has channel `ch` within `lo .. hi`. */
  predicate VisibleWithin(px: seq<Rgba>, ch: Channel, lo: int, hi: int)
  {
    forall i :: 0 <= i < |px| && Visible(px[i]) ==> lo <= Get(px[i], ch) <= hi
  }

  lemma {:induction false} SumBounds(px: seq<Rgba>, ch: Channel, lo: nat, hi: nat)
    requires VisibleWithin(px, ch, lo, hi)
    ensures lo * CountVisible(px) <= SumVisible(px, ch) <= hi * CountVisible(px)
  {
    if |px| > 0 {
      var init := px[..|px| - 1];
      assert VisibleWithin(init, ch, lo, hi) by {
        forall i | 0 <= i < |init| && Visible(init[i])
          ensures lo <= Get(init[i], ch) <= hi
        {
          assert init[i] == px[i];
        }
      }
      SumBounds(init, ch, lo, hi);
      var c0, s0 := CountVisible(init), SumVisible(init, ch);
      var last := px[|px| - 1];
      if Visible(last) {
        assert CountVisible(px) == c0 + 1 && SumVisible(px, ch) == s0 + Get(last, ch);
        StepBounds(c0, s0, Get(last, ch), lo, hi);
      } else {
        assert CountVisible(px) == c0 && SumVisible(px, ch) == s0;
      }
    }
  }

  lemma StepBounds(c: nat, t: nat, x: nat, lo: nat, hi: nat)
    requires lo * c <= t <= hi * c && lo <= x <= hi
    ensures lo * (c + 1) <= t + x <= hi * (c + 1)
  {
    assert lo * (c + 1) == lo * c + lo && hi * (c + 1) == hi * c + hi;
  }

  /** A rounded mean of values in `lo .. hi` is again in `lo .. hi`. */
  lemma RoundDivWithin(t: nat, n: nat, lo: nat, hi: nat)
    requires n > 0 && lo * n <= t <= hi * n
    ensures lo <= RoundDiv(t, n) <= hi
  {
    RoundDivAbove(t, n, lo);
    RoundDivBelow(t, n, hi);
  }

  lemma RoundDivAbove(t: nat, n: nat, lo: nat)
    requires n > 0 && lo * n <= t
    ensures lo <= RoundDiv(t, n)
  {
    var m := 2 * n;
    var q := (2 * t + n) / m;
    DivMul(2 * t + n, m);
    assert lo * m == 2 * (lo * n);
    MulSucc(q, m);
    MulStrict(lo, q + 1, m);
  }

  lemma RoundDivBelow(t: nat, n: nat, hi: nat)
    requires n > 0 && t <= hi * n
    ensures RoundDiv(t, n) <= hi
  {
    var m := 2 * n;
    var q := (2 * t + n) / m;
    DivMul(2 * t + n, m);
    assert (hi + 1) * m == 2 * (hi * n) + m;
    MulStrict(q, hi + 1, m);
  }

  /** The rounded mean of one channel over the counted pixels. */
  function Mean(px: seq<Rgba>, ch: Channel): (m: Byte)
    requires CountVisible(px) > 0
    ensures VisibleWithin(px, ch, 1, 255) ==> m >= 1
  {
    var n, t := CountVisible(px), SumVisible(px, ch);
    assert VisibleWithin(px, ch, 0, 255);
    SumBounds(px, ch, 0, 255);
    RoundDivWithin(t, n, 0, 255);
    if VisibleWithin(px, ch, 1, 255) then
      SumBounds(px, ch, 1, 255);
      RoundDivWithin(t, n, 1, 255);
      RoundDiv(t, n)
    else
      RoundDiv(t, n)
  }

  /**
   * The colour a block is filled with. Its alpha is positive exactly when
   * some pixel of the block has a positive alpha.
   */
  function AverageColor(px: seq<Rgba>): (c: Rgba)
    ensures CountVisible(px) == 0 ==> c == Transparent
    ensures c.a > 0 <==> CountVisible(px) > 0
  {
    if CountVisible(px) == 0 then Transparent
    else
      assert VisibleWithin(px, A, 1, 255);
      Rgba(Mean(px, R), Mean(px, G), Mean(px, B), Mean(px, A))
  }

  /** Each channel of a non-empty average is the rounded mean of the counted values. */
  lemma AverageIsRoundedMean(px: seq<Rgba>, ch: Channel)
    requires CountVisible(px) > 0
    ensures var m, mean := Get(AverageColor(px), ch) as real, (SumVisible(px, ch) as real) / (CountVisible(px) as real);
      m - Half <= mean < m + Half
  {
  }

  /** Each averaged channel lies between the least and the greatest counted value. */
  lemma AverageWithin(px: seq<Rgba>, ch: Channel, lo: nat, hi: nat)
    requires VisibleWithin(px, ch, lo, hi)
    ensures CountVisible(px) > 0 ==> lo <= Get(AverageColor(px), ch) <= hi
  {
    if CountVisible(px) > 0 {
      SumBounds(px, ch, lo, hi);
      RoundDivWithin(SumVisible(px, ch), CountVisible(px), lo, hi);
    }
  }

  /** A block whose pixels all have the colour `c` averages to `c` (or to transparent if `c` is). */
  lemma UniformAverage(px: seq<Rgba>, c: Rgba)
    requires |px| > 0
    requires forall i :: 0 <= i < |px| ==> px[i] == c
    ensures AverageColor(px) == (if Visible(c) then c else Transparent)
  {
    if Visible(c) {
      assert Visible(px[|px| - 1]);
      assert CountVisible(px) > 0;
      forall ch: Channel
        ensures Get(AverageColor(px), ch) == Get(c, ch)
      {
        AverageWithin(px, ch, Get(c, ch), Get(c, ch));
      }
      assert AverageColor(px) == Rgba(c.r, c.g, c.b, c.a) by {
        assert Get(AverageColor(px), R) == c.r;
        assert Get(AverageColor(px), G) == c.g;
        assert Get(AverageColor(px), B) == c.b;
        assert Get(AverageColor(px), A) == c.a;
      }
    } else {
      NoneVisible(px);
    }
  }

  lemma {:induction false} NoneVisible(px: seq<Rgba>)
    requires forall i :: 0 <= i < |px| ==> !Visible(px[i])
    ensures CountVisible(px) == 0
  {
    if |px| > 0 {
      var init := px[..|px| - 1];
      assert forall i :: 0 <= i < |init| ==> init[i] == px[i];
      NoneVisible(init);
    }
  }

  lemma {:induction false} CountAppend(a: seq<Rgba>, b: seq<Rgba>)
    ensures CountVisible(a + b) == CountVisible(a) + CountVisible(b)
    decreases |b|
  {
    if |b| > 0 {
      var bi := b[..|b| - 1];
      assert (a + b)[..|a + b| - 1] == a + bi;
      CountAppend(a, bi);
    } else {
      assert a + b == a;
    }
  }

  lemma {:induction false} SumAppend(a: seq<Rgba>, b: seq<Rgba>, ch: Channel)
    ensures SumVisible(a + b, ch) == SumVisible(a, ch) + SumVisible(b, ch)
    decreases |b|
  {
    if |b| > 0 {
      var bi := b[..|b| - 1];
      assert (a + b)[..|a + b| - 1] == a + bi;
      SumAppend(a, bi, ch);
    } else {
      assert a + b == a;
    }
  }

  /**
   * Only pixels with a positive alpha contribute: a fully transparent pixel
   * placed anywhere in a block leaves its average unchanged, whatever its
   * colour channels hold.
   */
  lemma InvisiblePixelIgnored(before: seq<Rgba>, q: Rgba, after: seq<Rgba>)
    requires !Visible(q)
    ensures AverageColor(before + [q] + after) == AverageColor(before + after)
  {
    assert CountVisible([q]) == 0 by { assert [q][..0] == []; }
    CountAppend(before, [q]);
    CountAppend(before + [q], after);
    CountAppend(before, after);
    forall ch: Channel
      ensures SumVisible(before + [q] + after, ch) == SumVisible(before + after, ch)
    {
      assert SumVisible([q], ch) == 0 by { assert [q][..0] == []; }
      SumAppend(before, [q], ch);
      SumAppend(before + [q], after, ch);
      SumAppend(before, after, ch);
    }
  }

  /**
   * The loop of `_calculateAverageColor`: it walks the RGBA buffer four bytes
   * at a time, accumulates the channels and the count of pixels whose alpha
   * is positive, and rounds each total divided by the count.
   */
  method CalculateAverageColor(data: seq<Byte>) returns (c: Rgba)
    requires |data| % 4 == 0
    ensures c == AverageColor(Decode(data))
  {
    ghost var px := Decode(data);
    var totalR: nat, totalG: nat, totalB: nat, totalA: nat := 0, 0, 0, 0;
    var pixelCount: nat := 0;
    var i := 0;
    ghost var k := 0;
    while i < |data|
      invariant i == 4 * k && k <= |px|
      invariant pixelCount == CountVisible(px[..k])
      invariant totalR == SumVisible(px[..k], R) && totalG == SumVisible(px[..k], G)
      invariant totalB == SumVisible(px[..k], B) && totalA == SumVisible(px[..k], A)
    {
      DecodeAt(data, k);
      assert px[..k + 1][..k] == px[..k];
      if data[i + 3] > 0 {
        totalR := totalR + data[i];
        totalG := totalG + data[i + 1];
        totalB := totalB + data[i + 2];
        totalA := totalA + data[i + 3];
        pixelCount := pixelCount + 1;
      }
      i := i + 4;
      k := k + 1;
    }
    assert px[..k] == px;
    if pixelCount <= 0 {
      c := Transparent;
    } else {
      assert RoundDiv(totalR, pixelCount) == Mean(px, R) && RoundDiv(totalG, pixelCount) == Mean(px, G);
      assert RoundDiv(totalB, pixelCount) == Mean(px, B) && RoundDiv(totalA, pixelCount) == Mean(px, A);
      c := Rgba(RoundDiv(totalR, pixelCount), RoundDiv(totalG, pixelCount),
                RoundDiv(totalB, pixelCount), RoundDiv(totalA, pixelCount));
    }
  }
}

=== FILE: color.dfy ===
/**
 * Pixels as the canvas hands them out: `getImageData` returns a flat buffer
 * of 8-bit channels, four per pixel, in the order red, green, blue, alpha.
 */
module Color {

  /** One 8-bit channel of an RGBA buffer. */
  type Byte = x: int | 0 <= x < 256

  /** One device pixel, channels not premultiplied. */
  datatype Rgba = Rgba(r: Byte, g: Byte, b: Byte, a: Byte)

  /** `rgba(0, 0, 0, 0)`: what an empty block averages to. */
  const Transparent: Rgba := Rgba(0, 0, 0, 0)

  datatype Channel = R | G | B | A

  function Get(p: Rgba, ch: Channel): Byte
  {
    match ch
    case R => p.r
    case G => p.g
    case B => p.b
    case A => p.a
  }

  /** A pixel takes part in a block average only when its alpha is positive. */
  predicate Visible(p: Rgba)
  {
    p.a > 0
  }

  /** The pixels of an RGBA buffer, read four bytes at a time from the front. */
  function Decode(data: seq<Byte>): (px: seq<Rgba>)
    requires |data| % 4 == 0
    ensures 4 * |px| == |data|
    decreases |data|
  {
    if |data| == 0 then []
    else [Rgba(data[0], data[1], data[2], data[3])] + Decode(data[4..])
  }

  /** The RGBA buffer of a pixel sequence, as `getImageData` lays it out. */
  function Encode(px: seq<Rgba>): (data: seq<Byte>)
    ensures |data| == 4 * |px|
  {
    if |px| == 0 then []
    else [px[0].r, px[0].g, px[0].b, px[0].a] + Encode(px[1..])
  }

  /** Pixel `i` of a buffer is made of bytes `4i .. 4i+3`. */
  lemma {:induction false} DecodeAt(data: seq<Byte>, i: nat)
    requires |data| % 4 == 0 && i < |data| / 4
    ensures Decode(data)[i] == Rgba(data[4 * i], data[4 * i + 1], data[4 * i + 2], data[4 * i + 3])
    decreases i
  {
    if i > 0 {
      DecodeAt(data[4..], i - 1);
    }
  }

  lemma {:induction false} DecodeEncode(px: seq<Rgba>)
    ensures Decode(Encode(px)) == px
  {
    if |px| > 0 {
      var data := Encode(px);
      assert data[4..] == Encode(px[1..]);
      DecodeEncode(px[1..]);
    }
  }

  lemma {:induction false} EncodeDecode(data: seq<Byte>)
    requires |data| % 4 == 0
    ensures Encode(Decode(data)) == data
    decreases |data|
  {
    if |data| > 0 {
      var px := Decode(data);
      assert px[1..] == Decode(data[4..]);
      EncodeDecode(data[4..]);
    }
  }
}

=== FILE: controller.dfy ===
/**
 * The mosaic effect's two flags, `_isRunningDraw` and `_isRequestedCancel`,
 * and the requests and passes they coordinate. A request
 * (`drawEffectAsync`) asks the running pass to stop and waits, polling every
 * 10 ms, until no pass is running; then it starts a new pass. A block pass
 * works in segments separated by animation frames; at each frame boundary it
 * gives up if a cancel was requested, and only a pass that reaches the end
 * uncancelled copies its result to the visible canvas. The frame counter is
 * checked after every block, the last one included, so a pass may await a
 * frame after its last block and find a cancel there.
 *
 * Single-threaded JavaScript runs each handler to completion, so the model
 * is a sequence of atomic events. How many blocks a segment covers, and
 * whether a block throws, are event parameters.
 *
 * `AsWritten` follows `drawEffect` line by line, including the early return
 * for an image that is not showable, which leaves `_isRunningDraw` set.
 * `Corrected` clears the flag on that path as on every other.
 */
module Controller {
  import opened Numbers
  import opened Effects

  datatype Variant = AsWritten | Corrected

  type Positive = n: nat | n > 0 witness 1

  /** What one segment of a block pass does before it awaits the next frame or ends. */
  datatype Segment =
    | Blocks(count: Positive, yieldsAtEnd: bool)
      // processes up to `count` blocks without throwing; `yieldsAtEnd`: if that
      // finishes the last block, the frame counter is over its threshold and the
      // pass awaits one more frame before it commits
    | Throws                    // `getImageData` or a fill throws: the catch block runs

  /**
   * The block pass parked at a frame boundary, if any: its id and the blocks
   * still to do (0 when it awaits the frame after its last block).
   */
  datatype Slot = Idle | Parked(pass: nat, left: nat)

  /** One write to the visible canvas by the mosaic effect. */
  datatype Write =
    | Committed(pass: nat)   // `putImageData` of a finished block pass
    | Plain(pass: nat)       // block size 1: the plain image

  datatype State = State(
    running: bool,          // `_isRunningDraw` (initially undefined, i.e. false)
    cancel: bool,           // `_isRequestedCancel`
    showable: bool,         // `showImage.isShowableImage`
    blockSize: Num,         // `blockSize` as `parseInt` left it
    waiting: set<nat>,      // requests polling in `asyncWaitCancel`
    slot: Slot,
    requests: nat,          // requests made so far; the next one gets this id
    passes: nat,            // passes started so far; the next one gets this id
    visible: seq<Write>)    // the mosaic effect's writes to the visible canvas, oldest first

  datatype Event =
    | Request(total: nat, seg: Segment)              // `drawEffectAsync()`; `total` blocks if it runs now (0: the work canvas has a zero side)
    | Poll(req: nat, total: nat, seg: Segment)       // the 10 ms timer of a waiting request fires
    | Resume(seg: Segment)                           // the next animation frame for the parked pass
    | SetShowable(showable: bool)                    // an image finished or started loading
    | SetBlockSize(blockSize: Num)                   // the mosaic slider's `setValue`

  /** Nothing loaded, nothing running, no request made yet. */
  function Init(blockSize: Num): (s: State)
    ensures !s.running && !s.showable && s.slot == Idle && s.visible == []
    ensures s.blockSize == blockSize && s.passes == 0 && s.requests == 0
  {
    State(false, false, false, blockSize, {}, Idle, 0, 0, [])
  }

  /**
   * A pass (re-)enters its loop with `left` blocks to do: the loop condition
   * checks the cancel flag first. With no blocks left, the loops exit and
   * the pass commits. Otherwise the segment either throws, or parks at a
   * frame boundary with blocks left, or finishes the last block and then
   * commits at once or, when the frame counter is over its threshold, parks
   * with nothing left and commits at the next frame unless cancelled there.
   */
  function Continue(s: State, id: nat, left: nat, seg: Segment): (r: State)
    requires s.slot == Idle
    ensures r.passes == s.passes && r.requests == s.requests && r.waiting == s.waiting
    ensures r.slot.Parked? ==> r.slot.pass == id && r.running == s.running && r.visible == s.visible
    ensures r.slot.Idle? ==> !r.running
    ensures r.visible == s.visible || (r.visible == s.visible + [Committed(id)] && !s.cancel)
    ensures s.cancel ==> r.visible == s.visible && r.slot.Idle?
    ensures !s.cancel && left == 0 ==> r.visible == s.visible + [Committed(id)]
    ensures !s.cancel && left > 0 && seg.Throws? ==> r.visible == s.visible && r.slot.Idle? && !r.running
  {
    if s.cancel then s.(running := false)
    else if left == 0 then s.(running := false, visible := s.visible + [Committed(id)])
    else match seg
      case Throws => s.(running := false)
      case Blocks(n, yieldsAtEnd) =>
        if n < left then s.(slot := Parked(id, left - n))
        else if yieldsAtEnd then s.(slot := Parked(id, 0))
        else s.(running := false, visible := s.visible + [Committed(id)])
  }

  /**
   * The part of `drawEffectAsync` after the wait, and `drawEffect` up to its
   * first frame boundary: the running flag is set and the cancel flag
   * cleared, then the checks at the top of `drawEffect` pick the branch.
   * A block pass with no blocks has a work canvas with a zero side: reading
   * its image data for the commit throws, so it ends in the catch block.
   */
  function Start(v: Variant, s: State, total: nat, seg: Segment): State
    requires s.slot == Idle
  {
    var id := s.passes;
    var s1 := s.(running := true, cancel := false, passes := s.passes + 1);
    match PlanMosaic(s.showable, s.blockSize)
    case NotShowable => if v == AsWritten then s1 else s1.(running := false)
    case InvalidBlockSize => s1.(running := false)
    case PlainImage => s1.(running := false, visible := s.visible + [Plain(id)])
    case BlockPass => if total == 0 then s1.(running := false) else Continue(s1, id, total, seg)
  }

  predicate Inv(v: Variant, s: State)
  {
    && (s.slot.Parked? ==> s.running && s.slot.pass + 1 == s.passes)
    && (forall r :: r in s.waiting ==> r < s.requests)
    && (v == Corrected ==> (s.running <==> s.slot.Parked?))
  }

  /** One event; every event keeps the invariant, in both variants. */
  function Step(v: Variant, s: State, e: Event): (r: State)
    requires Inv(v, s)
    ensures Inv(v, r)
    ensures r.passes >= s.passes && r.requests >= s.requests
  {
    match e
    case Request(total, seg) =>
      var s1 := s.(cancel := true, requests := s.requests + 1);
      if s.running then s1.(waiting := s.waiting + {s.requests})
      else Start(v, s1, total, seg)
    case Poll(req, total, seg) =>
      if req !in s.waiting || s.running then s
      else Start(v, s.(waiting := s.waiting - {req}), total, seg)
    case Resume(seg) =>
      (match s.slot
       case Idle => s
       case Parked(id, left) => Continue(s.(slot := Idle), id, left, seg))
    case SetShowable(b) => s.(showable := b)
    case SetBlockSize(n) => s.(blockSize := n)
  }

  /** The state after a sequence of events. */
  function Replay(v: Variant, s: State, es: seq<Event>): (r: State)
    requires Inv(v, s)
    ensures Inv(v, r) && r.passes >= s.passes
    decreases |es|
  {
    if |es| == 0 then s
    else
      Replay(v, Step(v, s, es[0]), es[1..])
  }

  /**
   * Only the newest pass writes, and only as it ends uncancelled: an event
   * appends at most one write, never alters earlier ones, and a write comes
   * from the pass started last and leaves the running flag cleared.
   */
  lemma WritesOnlyByNewest(v: Variant, s: State, e: Event)
    requires Inv(v, s)
    ensures var r := Step(v, s, e);
      && |s.visible| <= |r.visible| <= |s.visible| + 1
      && r.visible[..|s.visible|] == s.visible
      && (|r.visible| > |s.visible| ==> r.visible[|s.visible|].pass + 1 == r.passes && !r.running && !r.cancel)
  {
  }

  /** A parked pass that finds a cancel request at its frame boundary ends without writing. */
  lemma CancelledPassNeverCommits(v: Variant, s: State, seg: Segment)
    requires Inv(v, s) && s.slot.Parked? && s.cancel
    ensures var r := Step(v, s, Resume(seg));
      r.visible == s.visible && !r.running && r.slot == Idle
  {
  }

  /**
   * A parked pass whose next segment throws runs the catch block: it ends
   * with the running flag cleared and writes nothing, in both variants.
   */
  lemma ThrowingSegmentNeverCommits(v: Variant, s: State)
    requires Inv(v, s) && s.slot.Parked? && s.slot.left > 0
    ensures var r := Step(v, s, Resume(Throws));
      r.visible == s.visible && !r.running && r.slot == Idle && r.passes == s.passes
  {
  }

  /**
   * A pass that has been superseded by a newer one never reaches the visible
   * canvas, whatever happens afterwards.
   */
  lemma {:induction false} SupersededNeverCommits(v: Variant, s: State, es: seq<Event>, p: nat)
    requires Inv(v, s) && p + 1 < s.passes
    ensures var r := Replay(v, s, es);
      |r.visible| >= |s.visible| && r.visible[..|s.visible|] == s.visible
      && forall i :: |s.visible| <= i < |r.visible| ==> r.visible[i].pass != p
    decreases |es|
  {
    if |es| > 0 {
      var s1 := Step(v, s, es[0]);
      WritesOnlyByNewest(v, s, es[0]);
      SupersededNeverCommits(v, s1, es[1..], p);
      var r := Replay(v, s1, es[1..]);
      assert r == Replay(v, s, es);
      forall i | |s.visible| <= i < |r.visible|
        ensures r.visible[i].pass != p
      {
        if i < |s1.visible| {
          assert r.visible[i] == s1.visible[i];
        }
      }
    }
  }

  /**
   * Every way a started pass can end before its first frame boundary
   * clears the running flag (invalid block size, the plain image, a throw,
   * a cancel, the final commit), except one: as written, the early return
   * for an image that is not showable leaves it set.
   */
  lemma StartLeavesFlagIff(v: Variant, s: State, total: nat, seg: Segment)
    requires s.slot == Idle
    ensures var r := Start(v, s, total, seg);
      (r.slot == Idle && r.running) <==> (v == AsWritten && !s.showable)
  {
  }

  /** Every way a resumed pass ends (cancel, throw, commit) clears the running flag, in both variants. */
  lemma ResumeExitClearsFlag(v: Variant, s: State, seg: Segment)
    requires Inv(v, s) && s.slot.Parked?
    ensures var r := Step(v, s, Resume(seg));
      r.slot == Idle ==> !r.running
  {
  }

  /**
   * Corrected: a request waiting in its poll loop starts once the parked
   * pass (if any) has run to its end.
   */
  lemma CorrectedWaitingRequestStarts(s: State, finish: Positive, req: nat, total: nat, seg: Segment)
    requires Inv(Corrected, s) && req in s.waiting
    requires s.slot.Parked? ==> s.slot.left <= finish
    ensures var r := Replay(Corrected, s, [Resume(Blocks(finish, false)), Poll(req, total, seg)]);
      r.passes == s.passes + 1 && req !in r.waiting
  {
    var es := [Resume(Blocks(finish, false)), Poll(req, total, seg)];
    var s1 := Step(Corrected, s, es[0]);
    CorrectedDrain(s, finish);
    ReplayCons(Corrected, s, es);
    ReplayCons(Corrected, s1, es[1..]);
  }

  // ---------------------------------------------------------------------------
  // The leaked running flag.

  /** The running flag is set but no pass exists that could ever clear it. */
  predicate Stuck(s: State)
  {
    s.running && s.slot == Idle
  }

  /**
   * As written, a stuck state stays stuck under every event: requests only
   * queue up, polls keep waiting, no pass starts and nothing is written.
   */
  lemma StuckStep(s: State, e: Event)
    requires Inv(AsWritten, s) && Stuck(s)
    ensures var r := Step(AsWritten, s, e);
      Stuck(r) && r.passes == s.passes && r.visible == s.visible
  {
  }

  lemma {:induction false} StuckForever(s: State, es: seq<Event>)
    requires Inv(AsWritten, s) && Stuck(s)
    ensures var r := Replay(AsWritten, s, es);
      Stuck(r) && r.passes == s.passes && r.visible == s.visible
    decreases |es|
  {
    if |es| > 0 {
      StuckStep(s, es[0]);
      StuckForever(Step(AsWritten, s, es[0]), es[1..]);
    }
  }

  /**
   * As written: a mosaic request made before any image is showable (moving
   * the mosaic slider before loading a picture) leaves the flag set, and
   * after that no sequence of events whatsoever, loading an image and
   * requesting the mosaic again included, puts a mosaic on the canvas.
   */
  lemma EarlyRequestBlocksMosaic(blockSize: Num, total: nat, seg: Segment, es: seq<Event>)
    ensures Replay(AsWritten, Init(blockSize), [Request(total, seg)] + es).visible == []
  {
    var s0 := Init(blockSize);
    var s1 := Step(AsWritten, s0, Request(total, seg));
    assert Stuck(s1);
    StuckForever(s1, es);
    assert ([Request(total, seg)] + es)[1..] == es;
  }

  /** With the flag cleared on every exit, the running flag is never left without a pass. */
  lemma CorrectedNeverStuck(s: State)
    requires Inv(Corrected, s)
    ensures !Stuck(s)
  {
  }

  /** Corrected: when no pass is running, a request on a showable image with blocks above 1 starts and commits. */
  lemma CorrectedIdleRequestCommits(s: State, total: nat, k: Positive)
    requires Inv(Corrected, s) && !s.running && s.showable
    requires s.blockSize.Finite? && s.blockSize.v > 1.0 && 0 < total <= k
    ensures var r := Step(Corrected, s, Request(total, Blocks(k, false)));
      r.visible == s.visible + [Committed(s.passes)] && r.passes == s.passes + 1 && !r.running
  {
  }

  /**
   * A block pass over a work canvas with a zero side has no blocks; its
   * final `getImageData` throws, so it ends with the flag cleared and
   * nothing written, in both variants.
   */
  lemma EmptyCanvasNeverCommits(v: Variant, s: State, seg: Segment)
    requires Inv(v, s) && !s.running && s.showable
    requires s.blockSize.Finite? && s.blockSize.v > 1.0
    ensures var r := Step(v, s, Request(0, seg));
      r.visible == s.visible && !r.running && r.passes == s.passes + 1
  {
  }

  /**
   * A pass whose frame counter is over its threshold after its last block
   * (a single block of side above 70, say) awaits one more frame. If
   * nothing happens in between, it commits at that frame, whatever the
   * frame's segment parameter says.
   */
  lemma FinalFrameCommits(v: Variant, s: State, total: Positive, k: Positive, seg: Segment)
    requires Inv(v, s) && !s.running && s.showable
    requires s.blockSize.Finite? && s.blockSize.v > 1.0 && total <= k
    ensures var r1 := Step(v, s, Request(total, Blocks(k, true)));
      && r1.visible == s.visible && r1.running && r1.slot == Parked(s.passes, 0)
      && Step(v, r1, Resume(seg)).visible == s.visible + [Committed(s.passes)]
      && !Step(v, r1, Resume(seg)).running
  {
  }

  /**
   * A newer request made during the frame a pass awaits after its last
   * block cancels it: the older pass never commits, and once the newer
   * request's poll starts its own pass, only that pass reaches the canvas.
   */
  lemma FinalFrameCancelled(v: Variant, s: State, total: Positive, k: Positive, seg: Segment)
    requires Inv(v, s) && !s.running && s.showable
    requires s.blockSize.Finite? && s.blockSize.v > 1.0 && total <= k
    ensures var es := [Request(total, Blocks(k, true)), Request(total, Blocks(k, false)), Resume(seg), Poll(s.requests + 1, total, Blocks(k, false))];
      var r := Replay(v, s, es);
      r.visible == s.visible + [Committed(s.passes + 1)] && !r.running
  {
    var es := [Request(total, Blocks(k, true)), Request(total, Blocks(k, false)), Resume(seg), Poll(s.requests + 1, total, Blocks(k, false))];
    var s1 := Step(v, s, es[0]);
    var s2 := Step(v, s1, es[1]);
    var s3 := Step(v, s2, es[2]);
    assert s2.cancel && s2.slot == Parked(s.passes, 0);
    assert s3.visible == s.visible && !s3.running && s.requests + 1 in s3.waiting;
    var s4 := Step(v, s3, es[3]);
    assert s4.visible == s.visible + [Committed(s.passes + 1)];
    ReplayCons(v, s, es);
    ReplayCons(v, s1, es[1..]);
    ReplayCons(v, s2, es[2..]);
    ReplayCons(v, s3, es[3..]);
    assert es[3..][1..] == [];
  }

  /** Corrected: a frame that lets the parked pass run to its end leaves no pass running. */
  lemma CorrectedDrain(s: State, finish: Positive)
    requires Inv(Corrected, s)
    requires s.slot.Parked? ==> s.slot.left <= finish
    ensures var r := Step(Corrected, s, Resume(Blocks(finish, false)));
      !r.running && r.passes == s.passes
  {
  }

  /**
   * Corrected, from any reachable state: letting the parked pass (if any)
   * run to its end, making the image showable with a block size above 1,
   * and requesting the mosaic, puts the new pass's result on the canvas.
   */
  lemma CorrectedRequestRenders(s: State, finish: Positive, b: real, total: nat, k: Positive)
    requires Inv(Corrected, s)
    requires s.slot.Parked? ==> s.slot.left <= finish
    requires b > 1.0 && 0 < total <= k
    ensures var r := Replay(Corrected, s, [Resume(Blocks(finish, false)), SetShowable(true), SetBlockSize(Finite(b)), Request(total, Blocks(k, false))]);
      |r.visible| > 0 && r.visible[|r.visible| - 1] == Committed(s.passes) && !r.running
  {
    var es := [Resume(Blocks(finish, false)), SetShowable(true), SetBlockSize(Finite(b)), Request(total, Blocks(k, false))];
    var s1 := Step(Corrected, s, es[0]);
    CorrectedDrain(s, finish);
    ReplayCons(Corrected, s, es);
    assert es[1..] == [SetShowable(true), SetBlockSize(Finite(b)), Request(total, Blocks(k, false))];
    CorrectedShowThenRequest(s1, b, total, k);
  }

  /** Corrected, with no pass running: make the image showable, set the block size, request. */
  lemma CorrectedShowThenRequest(s: State, b: real, total: nat, k: Positive)
    requires Inv(Corrected, s) && !s.running
    requires b > 1.0 && 0 < total <= k
    ensures var r := Replay(Corrected, s, [SetShowable(true), SetBlockSize(Finite(b)), Request(total, Blocks(k, false))]);
      r.visible == s.visible + [Committed(s.passes)] && !r.running
  {
    var es := [SetShowable(true), SetBlockSize(Finite(b)), Request(total, Blocks(k, false))];
    var s1 := s.(showable := true);
    var s2 := s1.(blockSize := Finite(b));
    assert Step(Corrected, s, es[0]) == s1;
    assert Step(Corrected, s1, es[1]) == s2;
    CorrectedIdleRequestCommits(s2, total, k);
    ReplayCons(Corrected, s, es);
    ReplayCons(Corrected, s1, es[1..]);
    ReplayCons(Corrected, s2, es[2..]);
    assert es[2..][1..] == [];
  }

  lemma ReplayCons(v: Variant, s: State, es: seq<Event>)
    requires Inv(v, s) && |es| > 0
    ensures Replay(v, s, es) == Replay(v, Step(v, s, es[0]), es[1..])
  {
  }

  /**
   * The scenario of the finding in both variants: the mosaic slider moves
   * before an image is showable, then an image loads and the last effect is
   * drawn again. As written nothing appears; corrected, the block pass
   * commits.
   */
  lemma SliderBeforeLoad(blockSize: real, total: nat, k: Positive)
    requires blockSize > 1.0 && 0 < total <= k
    ensures var es := [Request(total, Blocks(k, false)), SetShowable(true), Request(total, Blocks(k, false))];
      && Replay(AsWritten, Init(Finite(blockSize)), es).visible == []
      && Replay(Corrected, Init(Finite(blockSize)), es).visible == [Committed(1)]
  {
    var es := [Request(total, Blocks(k, false)), SetShowable(true), Request(total, Blocks(k, false))];
    EarlyRequestBlocksMosaic(Finite(blockSize), total, Blocks(k, false), es[1..]);
    assert [Request(total, Blocks(k, false))] + es[1..] == es;
    var c0 := Init(Finite(blockSize));
    var c1 := Step(Corrected, c0, es[0]);
    var c2 := Step(Corrected, c1, es[1]);
    var c3 := Step(Corrected, c2, es[2]);
    assert c3.visible == [Committed(1)];
    assert Replay(Corrected, c0, es) == Replay(Corrected, c1, es[1..]);
    assert Replay(Corrected, c1, es[1..]) == Replay(Corrected, c2, es[2..]);
    assert Replay(Corrected, c2, es[2..]) == Replay(Corrected, c3, es[3..]);
  }
}

=== FILE: effects.dfy ===
/**
 * The ten effects' guards, clear decisions and canvas geometry. The pixels
 * a browser filter produces are not modelled: an effect is the sequence of
 * canvas calls it makes (resize, clear, draw with a filter at a position).
 */
module Effects {
  import opened Numbers
  import opened Surface

  // ---------------------------------------------------------------------------
  // The seven filters that draw the image unchanged in size at the origin.

  datatype SimpleKind = Brightness | Contrast | Grayscale | HueRotate | Invert | Opacity | Saturate

  /** The filter string each simple effect sets, with its parameter. */
  function SimpleFilter(kind: SimpleKind, v: real): Filter
  {
    match kind
    case Brightness => BrightnessFilter(v)
    case Contrast => ContrastFilter(v)
    case Grayscale => GrayscaleFilter(v)
    case HueRotate => HueRotateFilter(v)
    case Invert => InvertFilter(v)
    case Opacity => OpacityFilter(v)
    case Saturate => SaturateFilter(v)
  }

  /** What an effect does to the canvas before drawing. */
  datatype Plan = Skip | Draw(clear: bool)

  /**
   * The decision shared by the seven simple filters: skip when the image is
   * not showable or the parameter is NaN or negative, otherwise clear first
   * exactly when the draw must not overlap what is there.
   */
  function SimplePlan(showable: bool, param: Num, isOverlap: bool): (p: Plan)
    ensures p == Skip <==> !showable || param.NaN? || param.v < 0.0
    ensures p.Draw? ==> (p.clear <==> !isOverlap)
  {
    if !showable || Rejected(param) then Skip
    else Draw(!isOverlap)
  }

  /** `drawEffect(isOverlap)` of a simple filter effect. */
  function DrawSimple(s: ShowImage, kind: SimpleKind, param: Num, isOverlap: bool): (r: ShowImage)
    requires s.scale > 0.0
    ensures SimplePlan(s.showable, param, isOverlap) == Skip ==> r == s
    ensures SimplePlan(s.showable, param, isOverlap) != Skip ==>
      r.drawn == (if isOverlap then s.drawn else []) + [DrawImage(SimpleFilter(kind, param.v), 0.0, 0.0)]
    ensures r.canvasW == s.canvasW && r.canvasH == s.canvasH && r.scale == s.scale
  {
    match SimplePlan(s.showable, param, isOverlap)
    case Skip => s
    case Draw(clear) =>
      var base := if clear then ClearRect(s) else s;
      Surface.Draw(base, DrawImage(SimpleFilter(kind, param.v), 0.0, 0.0))
  }

  /**
   * Without overlap a simple filter erases whatever the canvas showed: two
   * canvases that differ only in earlier drawing end up identical, so
   * switching effects or editing a parameter never stacks results.
   */
  lemma SimpleNoStacking(s1: ShowImage, s2: ShowImage, kind: SimpleKind, param: Num)
    requires s1.scale > 0.0 && SameImage(s1, s2)
    requires s1.showable && !Rejected(param)
    ensures DrawSimple(s1, kind, param, false) == DrawSimple(s2, kind, param, false)
  {
  }

  /** With overlap, what was drawn before stays under the new image. */
  lemma SimpleOverlapKeeps(s: ShowImage, kind: SimpleKind, param: Num)
    requires s.scale > 0.0 && s.showable && !Rejected(param)
    ensures DrawSimple(s, kind, param, true).drawn[..|s.drawn|] == s.drawn
    ensures |DrawSimple(s, kind, param, true).drawn| == |s.drawn| + 1
  {
  }

  // ---------------------------------------------------------------------------
  // Geometry shared by blur and drop-shadow.

  /** Two states of the visible canvas that differ at most in what was drawn on them. */
  predicate SameImage(s1: ShowImage, s2: ShowImage)
  {
    s1.(drawn := []) == s2.(drawn := [])
  }

  /** A logical canvas size and where on it the image is drawn. */
  datatype Layout = Layout(width: real, height: real, x: real, y: real)

  /** The extent of a horizontal or vertical interval, for bounding-box statements. */
  predicate Spans(lo: real, hi: real, from: real, to: real)
  {
    lo == from && hi == to
  }

  // ---------------------------------------------------------------------------
  // Blur.

  /** `size * 2.5 / scale * (isScaling ? 1 : 0)`: the logical margin blur haze needs. */
  function BlurSpread(size: real, isScaling: bool, scale: real): (sp: real)
    requires scale > 0.0
    ensures size >= 0.0 ==> sp >= 0.0
    ensures !isScaling ==> sp == 0.0
    ensures isScaling ==> sp * scale == size * 2.5
  {
    if isScaling then size * 2.5 / scale else 0.0
  }

  /**
   * The blur canvas: the image grows by the spread on every side and is
   * drawn at `(spread, spread)`, so image plus haze fills the canvas exactly.
   */
  function BlurLayout(imageW: real, imageH: real, spread: real): (l: Layout)
    ensures l.x == spread && l.y == spread
    ensures Spans(l.x - spread, l.x + imageW + spread, 0.0, l.width)
    ensures Spans(l.y - spread, l.y + imageH + spread, 0.0, l.height)
  {
    Layout(imageW + spread * 2.0, imageH + spread * 2.0, spread, spread)
  }

  /** `BlurEffect.drawEffect(isOverlap)`. */
  function DrawBlur(s: ShowImage, size: Num, isScaling: bool, isOverlap: bool): (r: ShowImage)
    requires s.scale > 0.0
    ensures !s.showable || Rejected(size) ==> r == s
  {
    if !s.showable || Rejected(size) then s
    else
      var sp := BlurSpread(size.v, isScaling, s.scale);
      var l := BlurLayout(s.imageW, s.imageH, sp);
      var resized := Resize(s, l.width * s.scale, l.height * s.scale);
      var base := if !isOverlap && sp <= 0.0 then ClearRect(resized) else resized;
      Surface.Draw(base, DrawImage(BlurFilter(size.v), l.x, l.y))
  }

  /**
   * Blur geometry in device pixels: with scaling on the canvas is the scaled
   * image plus `5 * size` on each axis (2.5 times the blur size on each
   * side, whatever the scale); with scaling off it is the scaled image. The
   * image is drawn at the spread, and it is the only thing on the canvas.
   */
  lemma BlurGeometry(s: ShowImage, size: real, isScaling: bool, isOverlap: bool)
    requires s.scale > 0.0 && s.showable && size >= 0.0
    ensures var r := DrawBlur(s, Finite(size), isScaling, isOverlap);
      var margin := if isScaling then 5.0 * size else 0.0;
      && r.canvasW == s.imageW * s.scale + margin
      && r.canvasH == s.imageH * s.scale + margin
      && r.drawn == [DrawImage(BlurFilter(size), BlurSpread(size, isScaling, s.scale), BlurSpread(size, isScaling, s.scale))]
  {
    var sp := BlurSpread(size, isScaling, s.scale);
    assert (s.imageW + sp * 2.0) * s.scale == s.imageW * s.scale + 2.0 * (sp * s.scale);
    assert (s.imageH + sp * 2.0) * s.scale == s.imageH * s.scale + 2.0 * (sp * s.scale);
  }

  /**
   * Blur always resizes the canvas, and resizing resets the bitmap, so the
   * result is the same with or without overlap and whatever was drawn
   * before: the `isOverlap && spread <= 0` case that skips `clearRect` still
   * starts from a blank canvas.
   */
  lemma BlurIgnoresOverlap(s1: ShowImage, s2: ShowImage, size: Num, isScaling: bool)
    requires s1.scale > 0.0 && SameImage(s1, s2)
    requires s1.showable && !Rejected(size)
    ensures DrawBlur(s1, size, isScaling, true) == DrawBlur(s2, size, isScaling, false)
  {
    assert s1.(drawn := []) == s2.(drawn := []);
  }

  // ---------------------------------------------------------------------------
  // Drop shadow.

  /** `blurRadius * 2.5 / scale`: the logical margin the shadow's blur needs. */
  function ShadowSpread(radius: real, scale: real): (sp: real)
    requires scale > 0.0
    ensures radius >= 0.0 ==> sp >= 0.0
    ensures sp * scale == radius * 2.5
  {
    radius * 2.5 / scale
  }

  /**
   * The drop-shadow canvas along one axis: the image plus the spread on both
   * sides, plus `|offset| - spread` when the offset is larger than the
   * spread; the image is drawn at `max(spread - offset, 0)`.
   */
  function ShadowAxis(size: real, offset: real, spread: real): (ext: (real, real))
  {
    var grow := if Abs(offset) > spread then Abs(offset) - spread else 0.0;
    (size + spread * 2.0 + grow, Max(spread - offset, 0.0))
  }

  function ShadowLayout(imageW: real, imageH: real, ox: real, oy: real, spread: real): Layout
  {
    Layout(ShadowAxis(imageW, ox, spread).0, ShadowAxis(imageH, oy, spread).0,
           ShadowAxis(imageW, ox, spread).1, ShadowAxis(imageH, oy, spread).1)
  }

  /**
   * Along each axis the drop-shadow canvas is exactly the bounding interval
   * of the image (drawn at the returned position) and of its shadow (the
   * image moved by the offset, widened by the spread on both sides): nothing
   * is clipped and there is no slack.
   */
  lemma ShadowAxisIsBoundingBox(size: real, offset: real, spread: real)
    requires size >= 0.0 && spread >= 0.0
    ensures var (len, at) := ShadowAxis(size, offset, spread);
      && at >= 0.0
      && Spans(Min(at, at + offset - spread), Max(at + size, at + offset + size + spread), 0.0, len)
  {
  }

  /** The layout of the drop-shadow canvas for the current image, scale and parameters. */
  function ShadowPlacement(s: ShowImage, ox: real, oy: real, radius: real): Layout
    requires s.scale > 0.0
  {
    ShadowLayout(s.imageW, s.imageH, ox, oy, ShadowSpread(radius, s.scale))
  }

  /**
   * The draw call: offsets go into the filter in device pixels, the radius
   * as it is, and the image is placed where the layout puts it.
   */
  function ShadowDraw(scale: real, l: Layout, ox: real, oy: real, radius: real, color: string): Op
  {
    DrawImage(DropShadowFilter(ox * scale, oy * scale, radius, color), l.x, l.y)
  }

  /** `DropShadowEffect.drawEffect(isOverlap)`. */
  function DrawDropShadow(s: ShowImage, ox: Num, oy: Num, radius: Num, color: string, isOverlap: bool): (r: ShowImage)
    requires s.scale > 0.0
    ensures !s.showable || ox.NaN? || oy.NaN? || Rejected(radius) ==> r == s
  {
    if !s.showable || ox.NaN? || oy.NaN? || Rejected(radius) then s
    else
      var l := ShadowPlacement(s, ox.v, oy.v, radius.v);
      var resized := Resize(s, l.width * s.scale, l.height * s.scale);
      Surface.Draw(ClearRect(resized), ShadowDraw(s.scale, l, ox.v, oy.v, radius.v, color))
  }

  /**
   * Drop-shadow geometry: the canvas is the layout scaled to device pixels,
   * the layout's position is never negative, and the shadowed image is the
   * only thing on the canvas, whatever `isOverlap` says.
   */
  lemma DropShadowGeometry(s: ShowImage, ox: real, oy: real, radius: real, color: string, isOverlap: bool)
    requires s.scale > 0.0 && s.showable && radius >= 0.0 && s.imageW >= 0.0 && s.imageH >= 0.0
    ensures var r := DrawDropShadow(s, Finite(ox), Finite(oy), Finite(radius), color, isOverlap);
      var l := ShadowPlacement(s, ox, oy, radius);
      && r.canvasW == l.width * s.scale && r.canvasH == l.height * s.scale
      && l.x >= 0.0 && l.y >= 0.0
      && r.drawn == [ShadowDraw(s.scale, l, ox, oy, radius, color)]
  {
    ShadowAxisIsBoundingBox(s.imageW, ox, ShadowSpread(radius, s.scale));
    ShadowAxisIsBoundingBox(s.imageH, oy, ShadowSpread(radius, s.scale));
  }

  /** The drop shadow always starts from a blank canvas, whatever `isOverlap` says. */
  lemma DropShadowIgnoresOverlap(s1: ShowImage, s2: ShowImage, ox: Num, oy: Num, radius: Num, color: string)
    requires s1.scale > 0.0 && SameImage(s1, s2)
    requires s1.showable && ox.Finite? && oy.Finite? && !Rejected(radius)
    ensures DrawDropShadow(s1, ox, oy, radius, color, true) == DrawDropShadow(s2, ox, oy, radius, color, false)
  {
    assert s1.(drawn := []) == s2.(drawn := []);
    assert s1.scale == s2.scale && s1.imageW == s2.imageW && s1.imageH == s2.imageH;
    assert ShadowPlacement(s1, ox.v, oy.v, radius.v) == ShadowPlacement(s2, ox.v, oy.v, radius.v);
  }

  // ---------------------------------------------------------------------------
  // Mosaic: the checks at the top of `MosaicEffect.drawEffect`.

  datatype MosaicPlan =
    | NotShowable        // returns at once
    | InvalidBlockSize   // warns, clears the running flag, returns
    | PlainImage         // block size in (0, 1]: clear and draw the plain image
    | BlockPass          // block size above 1: the block-averaging pass

  function PlanMosaic(showable: bool, blockSize: Num): (p: MosaicPlan)
    ensures p == NotShowable <==> !showable
    ensures p == InvalidBlockSize <==> showable && (blockSize.NaN? || blockSize.v <= 0.0)
    ensures p == BlockPass <==> showable && blockSize.Finite? && blockSize.v > 1.0
  {
    if !showable then NotShowable
    else if blockSize.NaN? || blockSize.v <= 0.0 then InvalidBlockSize
    else if blockSize.v > 1.0 then BlockPass
    else PlainImage
  }

  /** The block-size-1 branch: clear the visible canvas and draw the plain image. */
  function DrawPlainMosaic(s: ShowImage): (r: ShowImage)
    requires s.scale > 0.0
    ensures r.drawn == [DrawImage(NoFilter, 0.0, 0.0)]
    ensures r.canvasW == s.canvasW && r.canvasH == s.canvasH
  {
    Surface.Draw(ClearRect(s), DrawImage(NoFilter, 0.0, 0.0))
  }
}

=== FILE: inputs.dfy ===
/**
 * The two input validators of the common helpers: the image-URL extension
 * check, and the rule by which a slider and its text box keep one value.
 */
module Inputs {
  import opened Numbers

  // ---------------------------------------------------------------------------
  // `isImageURL`.

  /**
   * Case folding as a non-Unicode JavaScript regular expression with the `i`
   * flag applies it to these letters: only ASCII letters fold, since no
   * non-ASCII character is canonicalised to an ASCII one.
   */
  function Lower(c: char): char
  {
    if 'A' <= c <= 'Z' then (c as int + 32) as char else c
  }

  function LowerAll(s: string): (r: string)
    ensures |r| == |s| && forall i :: 0 <= i < |s| ==> r[i] == Lower(s[i])
  {
    seq(|s|, i requires 0 <= i < |s| => Lower(s[i]))
  }

  function Upper(c: char): char
  {
    if 'a' <= c <= 'z' then (c as int - 32) as char else c
  }

  function UpperAll(s: string): (r: string)
    ensures |r| == |s| && forall i :: 0 <= i < |s| ==> r[i] == Upper(s[i])
  {
    seq(|s|, i requires 0 <= i < |s| => Upper(s[i]))
  }

  /** The alternatives of the pattern, in lower case. */
  const Extensions: seq<string> := ["jpg", "jpeg", "png", "gif", "bmp", "svg"]

  predicate EndsWith(s: string, suffix: string)
  {
    |suffix| <= |s| && s[|s| - |suffix|..] == suffix
  }

  /**
   * What the pattern `\.(jpg|jpeg|png|gif|bmp|svg)$` with the `i` flag
   * accepts: a dot then one of the extensions, in any letter case, ending
   * the whole string (`$` without the `m` flag anchors at the end of input).
   */
  predicate MatchesPattern(url: string)
  {
    exists k :: 0 <= k < |Extensions| && EndsWith(LowerAll(url), "." + Extensions[k])
  }

  /** The index of the last `.` of `s`, if any. */
  function LastDot(s: string): (r: int)
    ensures -1 <= r < |s|
    ensures r >= 0 ==> s[r] == '.'
    ensures forall i :: r < i < |s| ==> s[i] != '.'
  {
    if |s| == 0 then -1
    else if s[|s| - 1] == '.' then |s| - 1
    else LastDot(s[..|s| - 1])
  }

  /**
   * `isImageURL(url)`, computed as a file-name check: the text after the
   * last dot, folded to lower case, is one of the extensions.
   */
  function IsImageURL(url: string): bool
  {
    var d := LastDot(url);
    d >= 0 && LowerAll(url[d + 1..]) in Extensions
  }

  lemma LowerAllSlice(s: string, i: nat)
    requires i <= |s|
    ensures LowerAll(s)[i..] == LowerAll(s[i..])
  {
    var low, rest := LowerAll(s), LowerAll(s[i..]);
    forall j | 0 <= j < |s| - i
      ensures low[i..][j] == rest[j]
    {
      assert rest[j] == Lower(s[i..][j]);
    }
  }

  lemma LowerDot(c: char)
    ensures Lower(c) == '.' <==> c == '.'
  {
  }

  /** The extension check agrees with the pattern on every string. */
  lemma IsImageURLMatchesPattern(url: string)
    ensures IsImageURL(url) <==> MatchesPattern(url)
  {
    if IsImageURL(url) {
      ExtensionMatches(url);
    }
    if MatchesPattern(url) {
      var k :| 0 <= k < |Extensions| && EndsWith(LowerAll(url), "." + Extensions[k]);
      MatchHasExtension(url, k);
    }
  }

  lemma ExtensionMatches(url: string)
    requires IsImageURL(url)
    ensures MatchesPattern(url)
  {
    var d := LastDot(url);
    var ext := LowerAll(url[d + 1..]);
    var k := IndexIn(ext, Extensions);
    DotSuffix(url, d);
    SuffixEndsWith(LowerAll(url), d, "." + Extensions[k]);
  }

  /** Folded, the text from a dot on is the dot followed by the folded rest. */
  lemma DotSuffix(url: string, d: nat)
    requires d < |url| && url[d] == '.'
    ensures LowerAll(url)[d..] == "." + LowerAll(url[d + 1..])
  {
    var low, rest := LowerAll(url), LowerAll(url[d + 1..]);
    LowerDot(url[d]);
    forall i | 0 <= i < |low| - d
      ensures low[d..][i] == ("." + rest)[i]
    {
      if i > 0 {
        assert rest[i - 1] == Lower(url[d + 1..][i - 1]);
      }
    }
  }

  lemma SuffixEndsWith(s: string, d: nat, suffix: string)
    requires d <= |s| && s[d..] == suffix
    ensures EndsWith(s, suffix)
  {
  }

  lemma MatchHasExtension(url: string, k: nat)
    requires k < |Extensions| && EndsWith(LowerAll(url), "." + Extensions[k])
    ensures IsImageURL(url)
  {
    var ext := Extensions[k];
    ExtensionsDotFree(k);
    FoldedSuffix(url, ext);
    assert ext in Extensions;
  }

  /**
   * A string whose folded form ends in a dot and a dot-free `ext` has its
   * last dot right before the part that folds to `ext`.
   */
  lemma FoldedSuffix(url: string, ext: string)
    requires EndsWith(LowerAll(url), "." + ext)
    requires forall i :: 0 <= i < |ext| ==> ext[i] != '.'
    ensures var d := LastDot(url); d >= 0 && LowerAll(url[d + 1..]) == ext
  {
    var j := |url| - |ext| - 1;
    assert 0 <= j && LowerAll(url)[j] == '.' && LowerAll(url)[j + 1..] == ext by {
      MatchParts(LowerAll(url), ext, j);
    }
    assert LastDot(url) == j by {
      NoDotAfter(url, ext, j);
      LastDotIs(url, j);
    }
    assert LowerAll(url[j + 1..]) == ext by {
      LowerAllSlice(url, j + 1);
    }
  }

  lemma ExtensionsDotFree(k: nat)
    requires k < |Extensions|
    ensures forall i :: 0 <= i < |Extensions[k]| ==> Extensions[k][i] != '.'
  {
  }

  /** A dot with no dot after it is the last dot. */
  lemma LastDotIs(s: string, j: nat)
    requires j < |s| && s[j] == '.' && forall i :: j < i < |s| ==> s[i] != '.'
    ensures LastDot(s) == j
  {
  }

  /** A folded string ending in `"." + ext` has the dot at `j` and `ext` after it. */
  lemma MatchParts(low: string, ext: string, j: int)
    requires EndsWith(low, "." + ext) && j == |low| - |ext| - 1
    ensures 0 <= j && low[j] == '.' && low[j + 1..] == ext
  {
    assert low[j..] == "." + ext;
    assert low[j + 1..] == low[j..][1..];
  }

  /** The characters after the matched dot fold to a dot-free extension, so none is a dot. */
  lemma NoDotAfter(url: string, ext: string, j: nat)
    requires j < |url| && LowerAll(url)[j] == '.' && LowerAll(url)[j + 1..] == ext
    requires forall i :: 0 <= i < |ext| ==> ext[i] != '.'
    ensures url[j] == '.' && forall i :: j < i < |url| ==> url[i] != '.'
  {
    var low := LowerAll(url);
    LowerDot(url[j]);
    forall i | j < i < |url|
      ensures url[i] != '.'
    {
      assert low[i] == ext[i - j - 1];
      LowerDot(url[i]);
    }
  }

  /** The position of an element known to occur in a sequence. */
  function IndexIn<T(==)>(x: T, xs: seq<T>): (k: nat)
    requires x in xs
    ensures k < |xs| && xs[k] == x
  {
    if xs[0] == x then 0 else 1 + IndexIn(x, xs[1..])
  }

  lemma LowerUpper(c: char)
    ensures Lower(Upper(c)) == Lower(c)
  {
  }

  /** Letter case does not matter: upper-casing the whole string keeps the verdict. */
  lemma CaseInsensitive(url: string)
    ensures IsImageURL(UpperAll(url)) == IsImageURL(url)
  {
    var up := UpperAll(url);
    assert LowerAll(up) == LowerAll(url) by {
      forall i | 0 <= i < |url|
        ensures LowerAll(up)[i] == LowerAll(url)[i]
      {
        LowerUpper(url[i]);
      }
    }
    IsImageURLMatchesPattern(url);
    IsImageURLMatchesPattern(up);
  }

  /**
   * The match is anchored at the end: a string whose last character is not
   * a letter (a query string's value, a slash, a fragment mark) is never an
   * image URL.
   */
  lemma TrailingNonLetterRejected(url: string)
    requires |url| > 0 && !('a' <= Lower(url[|url| - 1]) <= 'z')
    ensures !IsImageURL(url)
  {
    var d := LastDot(url);
    if d >= 0 {
      var ext := LowerAll(url[d + 1..]);
      ExtensionsEndInLetter();
      if |ext| > 0 {
        assert ext[|ext| - 1] == Lower(url[|url| - 1]);
      }
      assert forall k :: 0 <= k < |Extensions| ==> Extensions[k] != ext;
    }
  }

  lemma ExtensionsEndInLetter()
    ensures forall k :: 0 <= k < |Extensions| ==> |Extensions[k]| > 0 && 'a' <= Extensions[k][|Extensions[k]| - 1] <= 'z'
  {
  }

  /** A dot is required before the extension: the bare word is not enough. */
  lemma DotRequired(url: string, k: nat)
    requires k < |Extensions| && url == Extensions[k]
    ensures !IsImageURL(url)
  {
    assert forall i :: 0 <= i < |url| ==> url[i] != '.';
  }

  // ---------------------------------------------------------------------------
  // `setupSliderAndTextInput`.

  /** What the text box shows: the slider's value, or the text the user typed last. */
  datatype TextBox = ShowsSlider | Typed(raw: string)

  /**
   * One slider bound to a text box: the slider's value, the box, the value
   * last handed to the model's setter, and how often the redraw callback
   * has fired.
   */
  datatype Binding = Binding(slider: real, text: TextBox, model: real, redraws: nat)

  predicate Synced(b: Binding)
  {
    b.model == b.slider
  }

  /** Setup: the box is set from the slider and the model receives the slider's value. */
  function Bind(slider: real): (b: Binding)
    ensures Synced(b) && b.text == ShowsSlider && b.redraws == 0
  {
    Binding(slider, ShowsSlider, slider, 0)
  }

  /** The slider moved: the box and the model follow it and the redraw fires. */
  function SliderInput(b: Binding, v: real): (r: Binding)
    ensures Synced(r) && r.slider == v && r.text == ShowsSlider && r.redraws == b.redraws + 1
  {
    Binding(v, ShowsSlider, v, b.redraws + 1)
  }

  /** The acceptance rule for typed text; comparisons with `NaN` are false. */
  predicate Acceptable(parsed: Num, min: Num, max: Num)
  {
    parsed.Finite? && min.Finite? && max.Finite? && min.v <= parsed.v <= max.v
  }

  /**
   * The user typed `raw`, which the parse function reads as `parsed`;
   * `min` and `max` are the slider's bounds read by the same function.
   * Accepted text moves the slider and the model and fires the redraw;
   * rejected text changes nothing but the box itself.
   */
  function TextInput(b: Binding, raw: string, parsed: Num, min: Num, max: Num): (r: Binding)
    ensures r.text == Typed(raw)
  {
    if parsed.Finite? && min.Finite? && max.Finite? && parsed.v >= min.v && parsed.v <= max.v then
      Binding(parsed.v, Typed(raw), parsed.v, b.redraws + 1)
    else
      b.(text := Typed(raw))
  }

  /**
   * Typed text takes effect exactly when it is acceptable; then slider and
   * model both hold the parsed value, otherwise slider, model and redraw
   * count are untouched.
   */
  lemma TextInputRule(b: Binding, raw: string, parsed: Num, min: Num, max: Num)
    ensures var r := TextInput(b, raw, parsed, min, max);
      && (r.redraws == b.redraws + 1 <==> Acceptable(parsed, min, max))
      && (Acceptable(parsed, min, max) ==> r.slider == parsed.v && r.model == parsed.v)
      && (!Acceptable(parsed, min, max) ==> r.slider == b.slider && r.model == b.model && r.redraws == b.redraws)
  {
  }

  /** Slider and model never disagree, whatever the user does. */
  lemma SyncedKept(b: Binding, raw: string, parsed: Num, min: Num, max: Num, v: real)
    requires Synced(b)
    ensures Synced(TextInput(b, raw, parsed, min, max)) && Synced(SliderInput(b, v))
  {
  }

  /** A NaN bound rejects every typed value. */
  lemma NaNBoundRejects(b: Binding, raw: string, parsed: Num, max: Num)
    ensures TextInput(b, raw, parsed, NaN, max) == b.(text := Typed(raw))
    ensures TextInput(b, raw, parsed, max, NaN) == b.(text := Typed(raw))
  {
  }
}

=== FILE: mosaic.dfy ===
/**
 * One mosaic pass over the device pixels of the work canvas, both as a
 * reference definition (every pixel takes the average colour of its block
 * in the source) and as the in-place sequence of block reads and fills the
 * loops of `MosaicEffect.drawEffect` perform.
 */
module Mosaic {
  import opened Color
  import opened Average
  import opened Tiling
  import opened Arith

  /** A W x H device-pixel canvas, row by row. */
  datatype Raster = Raster(width: nat, height: nat, rows: seq<seq<Rgba>>)
  {
    predicate Valid()
    {
      |rows| == height && forall j :: 0 <= j < height ==> |rows[j]| == width
    }

    function At(px: nat, py: nat): Rgba
      requires Valid() && px < width && py < height
    {
      rows[py][px]
    }
  }

  /** The block lies inside the canvas. */
  predicate Inside(g: Raster, blk: Block)
  {
    blk.x + blk.w <= g.width && blk.y + blk.h <= g.height
  }

  /** Rows `j ..` of a block, in the row-major order `getImageData` returns them. */
  function BlockRows(g: Raster, blk: Block, j: nat): seq<Rgba>
    requires g.Valid() && Inside(g, blk) && j <= blk.h
    decreases blk.h - j
  {
    if j == blk.h then []
    else g.rows[blk.y + j][blk.x .. blk.x + blk.w] + BlockRows(g, blk, j + 1)
  }

  /** `getImageData(x, y, w, h)` as a pixel sequence. */
  function BlockPixels(g: Raster, blk: Block): seq<Rgba>
    requires g.Valid() && Inside(g, blk)
  {
    BlockRows(g, blk, 0)
  }

  /** Two canvases that agree on a block read the same block pixels. */
  lemma {:induction false} BlockRowsAgree(g1: Raster, g2: Raster, blk: Block, j: nat)
    requires g1.Valid() && g2.Valid() && Inside(g1, blk) && Inside(g2, blk) && j <= blk.h
    requires forall px, py :: Contains(blk, px, py) ==> g1.rows[py][px] == g2.rows[py][px]
    ensures BlockRows(g1, blk, j) == BlockRows(g2, blk, j)
    decreases blk.h - j
  {
    if j < blk.h {
      var y := blk.y + j;
      var r1, r2 := g1.rows[y][blk.x .. blk.x + blk.w], g2.rows[y][blk.x .. blk.x + blk.w];
      forall k | 0 <= k < blk.w
        ensures r1[k] == r2[k]
      {
        assert Contains(blk, blk.x + k, y);
      }
      assert r1 == r2;
      BlockRowsAgree(g1, g2, blk, j + 1);
    }
  }

  /** A block whose pixels are all `c` reads as a non-empty run of `c`. */
  lemma {:induction false} BlockRowsUniform(g: Raster, blk: Block, j: nat, c: Rgba)
    requires g.Valid() && Inside(g, blk) && j <= blk.h
    requires forall px, py :: Contains(blk, px, py) ==> g.rows[py][px] == c
    ensures forall i :: 0 <= i < |BlockRows(g, blk, j)| ==> BlockRows(g, blk, j)[i] == c
    ensures j < blk.h && blk.w > 0 ==> |BlockRows(g, blk, j)| > 0
    decreases blk.h - j
  {
    if j < blk.h {
      var y := blk.y + j;
      var row := g.rows[y][blk.x .. blk.x + blk.w];
      forall k | 0 <= k < |row|
        ensures row[k] == c
      {
        assert Contains(blk, blk.x + k, y);
      }
      BlockRowsUniform(g, blk, j + 1, c);
    }
  }

  /** `clearRect` then `fillRect` of one block: its pixels become `c`, all others keep theirs. */
  function Fill(g: Raster, blk: Block, c: Rgba): (f: Raster)
    requires g.Valid()
    ensures f.Valid() && f.width == g.width && f.height == g.height
    ensures forall px, py :: 0 <= px < g.width && 0 <= py < g.height ==>
      f.rows[py][px] == (if Contains(blk, px, py) then c else g.rows[py][px])
  {
    Raster(g.width, g.height,
      seq(g.height, py requires 0 <= py < g.height =>
        seq(g.width, px requires 0 <= px < g.width =>
          if Contains(blk, px, py) then c else g.rows[py][px])))
  }

  /** The colour of pixel `(px, py)` after a pass: the average of its block in the source. */
  function Expected(g: Raster, b: nat, px: nat, py: nat): Rgba
    requires g.Valid() && b > 0 && px < g.width && py < g.height
  {
    var blk := BlockOf(g.width, g.height, b, px, py);
    AverageColor(BlockPixels(g, blk))
  }

  /** The mosaic of a canvas with block size `b`, as a reference definition. */
  function MosaicOf(g: Raster, b: nat): (m: Raster)
    requires g.Valid() && b > 0
    ensures m.Valid() && m.width == g.width && m.height == g.height
  {
    Raster(g.width, g.height,
      seq(g.height, py requires 0 <= py < g.height =>
        seq(g.width, px requires 0 <= px < g.width => Expected(g, b, px, py))))
  }

  /**
   * Every pixel of a visited block holds the block's average colour in the
   * source: the averaged colour of its alpha-positive pixels, or transparent.
   */
  lemma MosaicBlocks(g: Raster, b: nat, blk: Block, px: nat, py: nat)
    requires g.Valid() && b > 0 && blk in Blocks(g.width, g.height, b)
    requires px < g.width && py < g.height && Contains(blk, px, py)
    ensures Inside(g, blk)
    ensures MosaicOf(g, b).rows[py][px] == AverageColor(BlockPixels(g, blk))
  {
    BlocksAreGridBlocks(g.width, g.height, b, blk);
    ContainsIff(g.width, g.height, b, blk, px, py);
  }

  /** A mosaic is uniform on each block, so a second pass changes nothing. */
  lemma MosaicIdempotent(g: Raster, b: nat)
    requires g.Valid() && b > 0
    ensures MosaicOf(MosaicOf(g, b), b) == MosaicOf(g, b)
  {
    var m := MosaicOf(g, b);
    var mm := MosaicOf(m, b);
    forall py | 0 <= py < g.height
      ensures mm.rows[py] == m.rows[py]
    {
      forall px | 0 <= px < g.width
        ensures mm.rows[py][px] == m.rows[py][px]
      {
        MosaicPixelStable(g, b, px, py);
      }
    }
  }

  lemma MosaicPixelStable(g: Raster, b: nat, px: nat, py: nat)
    requires g.Valid() && b > 0 && px < g.width && py < g.height
    ensures MosaicOf(MosaicOf(g, b), b).rows[py][px] == MosaicOf(g, b).rows[py][px]
  {
    var m := MosaicOf(g, b);
    var blk := BlockOf(g.width, g.height, b, px, py);
    var c := AverageColor(BlockPixels(g, blk));
    assert m.rows[py][px] == c;
    forall qx, qy | Contains(blk, qx, qy)
      ensures m.rows[qy][qx] == c
    {
      ContainsIff(g.width, g.height, b, blk, qx, qy);
    }
    BlockRowsUniform(m, blk, 0, c);
    UniformAverage(BlockPixels(m, blk), c);
    assert MosaicOf(m, b).rows[py][px] == AverageColor(BlockPixels(m, blk));
  }

  /**
   * With block size 1 every pixel is its own block, so the mosaic is the
   * source itself once fully transparent pixels read back as `(0, 0, 0, 0)`:
   * the plain drawing `drawEffect` does for block size 1 agrees with the
   * block algorithm.
   */
  lemma UnitBlocksKeepImage(g: Raster)
    requires g.Valid()
    requires forall py, px :: 0 <= py < g.height && 0 <= px < g.width && !Visible(g.rows[py][px]) ==>
      g.rows[py][px] == Transparent
    ensures MosaicOf(g, 1) == g
  {
    var m := MosaicOf(g, 1);
    forall py | 0 <= py < g.height
      ensures m.rows[py] == g.rows[py]
    {
      forall px | 0 <= px < g.width
        ensures m.rows[py][px] == g.rows[py][px]
      {
        UnitBlockAverage(g, px, py);
      }
    }
  }

  /** A 1x1 block averages to its one pixel, unless that pixel is invisible. */
  lemma UnitBlockAverage(g: Raster, px: nat, py: nat)
    requires g.Valid() && px < g.width && py < g.height
    requires !Visible(g.rows[py][px]) ==> g.rows[py][px] == Transparent
    ensures AverageColor(BlockPixels(g, BlockOf(g.width, g.height, 1, px, py))) == g.rows[py][px]
  {
    var blk := BlockOf(g.width, g.height, 1, px, py);
    assert blk == Block(px, py, 1, 1);
    var c := g.rows[py][px];
    forall qx, qy | Contains(blk, qx, qy)
      ensures g.rows[qy][qx] == c
    {
    }
    BlockRowsUniform(g, blk, 0, c);
    UniformAverage(BlockPixels(g, blk), c);
  }

  // ---------------------------------------------------------------------------
  // The in-place pass.

  /** Block `(px, py)` was already visited when the loops stand at `(x, y)`. */
  predicate Visited(b: nat, x: nat, y: nat, px: nat, py: nat)
    requires b > 0
  {
    (py / b) * b < y || ((py / b) * b == y && (px / b) * b < x)
  }

  /** The work canvas at loop position `(x, y)`: visited blocks are filled, the rest is the source. */
  predicate PassInv(g: Raster, b: nat, work: Raster, x: nat, y: nat)
    requires g.Valid() && b > 0
  {
    && work.Valid() && work.width == g.width && work.height == g.height
    && forall py, px :: 0 <= py < g.height && 0 <= px < g.width ==>
        work.rows[py][px] == (if Visited(b, x, y, px, py) then Expected(g, b, px, py) else g.rows[py][px])
  }

  /** One block step: read the block, average it, fill it, move right. */
  lemma FillStep(g: Raster, b: nat, work: Raster, x: nat, y: nat, avg: Rgba)
    requires g.Valid() && b > 0 && x < g.width && y < g.height && x % b == 0 && y % b == 0
    requires PassInv(g, b, work, x, y)
    requires avg == AverageColor(BlockPixels(work, BlockAt(g.width, g.height, b, x, y)))
    ensures PassInv(g, b, Fill(work, BlockAt(g.width, g.height, b, x, y), avg), x + b, y)
  {
    var W, H := g.width, g.height;
    var blk := BlockAt(W, H, b, x, y);
    assert IsGridBlock(W, H, b, blk);
    forall qx, qy | Contains(blk, qx, qy)
      ensures work.rows[qy][qx] == g.rows[qy][qx]
    {
      ContainsIff(W, H, b, blk, qx, qy);
      assert !Visited(b, x, y, qx, qy);
    }
    BlockRowsAgree(work, g, blk, 0);
    var f := Fill(work, blk, avg);
    forall py, px | 0 <= py < H && 0 <= px < W
      ensures f.rows[py][px] == (if Visited(b, x + b, y, px, py) then Expected(g, b, px, py) else g.rows[py][px])
    {
      VisitedStep(W, H, b, x, y, px, py);
      if Contains(blk, px, py) {
        ContainsIff(W, H, b, blk, px, py);
        assert Expected(g, b, px, py) == avg;
      }
    }
  }

  /** Moving right by one block adds exactly that block to the visited ones. */
  lemma VisitedStep(W: nat, H: nat, b: nat, x: nat, y: nat, px: nat, py: nat)
    requires b > 0 && x < W && y < H && x % b == 0 && y % b == 0 && px < W && py < H
    ensures Visited(b, x + b, y, px, py) <==> Visited(b, x, y, px, py) || Contains(BlockAt(W, H, b, x, y), px, py)
    ensures Contains(BlockAt(W, H, b, x, y), px, py) ==> !Visited(b, x, y, px, py)
  {
    var blk := BlockAt(W, H, b, x, y);
    DivMul(px, b);
    DivMul(py, b);
    var ox, oy := (px / b) * b, (py / b) * b;
    ContainsIff(W, H, b, blk, px, py);
    if oy == y && x <= ox < x + b {
      if x < ox {
        NextMultiple(x, ox, b);
      }
      assert ox == x;
      assert blk == BlockOf(W, H, b, px, py);
    }
  }

  /** Leaving a row: every block of rows up to `y` is visited. */
  lemma NextRow(g: Raster, b: nat, work: Raster, x: nat, y: nat)
    requires g.Valid() && b > 0 && x >= g.width && y % b == 0
    requires PassInv(g, b, work, x, y)
    ensures PassInv(g, b, work, 0, y + b)
  {
    forall py, px | 0 <= py < g.height && 0 <= px < g.width
      ensures Visited(b, x, y, px, py) <==> Visited(b, 0, y + b, px, py)
    {
      VisitedRow(b, x, y, px, py);
    }
  }

  lemma VisitedRow(b: nat, x: nat, y: nat, px: nat, py: nat)
    requires b > 0 && px < x && y % b == 0
    ensures Visited(b, x, y, px, py) <==> Visited(b, 0, y + b, px, py)
  {
    DivMul(px, b);
    DivMul(py, b);
    var oy := (py / b) * b;
    if y < oy {
      NextMultiple(y, oy, b);
    }
  }

  /**
   * The loops of `MosaicEffect.drawEffect` without cancellation: for each
   * block in row-major order read its pixels from the work canvas as an RGBA
   * buffer, average them, and fill the block on the same canvas. Because
   * the blocks are disjoint, each read still sees the source pixels, and the
   * finished canvas is the reference mosaic.
   */
  method MosaicPass(g: Raster, b: nat) returns (work: Raster)
    requires g.Valid() && b > 0
    ensures work == MosaicOf(g, b)
  {
    work := g;
    var y := 0;
    while y < g.height
      invariant y % b == 0
      invariant PassInv(g, b, work, 0, y)
      decreases g.height - y
    {
      work := MosaicRow(g, b, work, y);
      ModStep(y, b);
      y := y + b;
    }
    AllVisited(g, b, work, y);
  }

  /** The inner loop of the pass: one row of blocks, left to right. */
  method MosaicRow(g: Raster, b: nat, start: Raster, y: nat) returns (work: Raster)
    requires g.Valid() && b > 0 && y < g.height && y % b == 0
    requires PassInv(g, b, start, 0, y)
    ensures PassInv(g, b, work, 0, y + b)
  {
    work := start;
    var x := 0;
    while x < g.width
      invariant x % b == 0
      invariant PassInv(g, b, work, x, y)
      decreases g.width - x
    {
      var blk := BlockAt(g.width, g.height, b, x, y);
      var data := Encode(BlockPixels(work, blk));
      assert |data| % 4 == 0 by { DecodeEncode(BlockPixels(work, blk)); }
      var averageColor := CalculateAverageColor(data);
      BlockStep(g, b, work, x, y, data, averageColor);
      work := Fill(work, blk, averageColor);
      x := x + b;
    }
    NextRow(g, b, work, x, y);
  }

  /** One block step as the pass performs it, on the encoded buffer. */
  lemma BlockStep(g: Raster, b: nat, work: Raster, x: nat, y: nat, data: seq<Byte>, avg: Rgba)
    requires g.Valid() && b > 0 && x < g.width && y < g.height && x % b == 0 && y % b == 0
    requires PassInv(g, b, work, x, y)
    requires data == Encode(BlockPixels(work, BlockAt(g.width, g.height, b, x, y)))
    requires avg == AverageColor(Decode(data))
    ensures (x + b) % b == 0
    ensures PassInv(g, b, Fill(work, BlockAt(g.width, g.height, b, x, y), avg), x + b, y)
  {
    DecodeEncode(BlockPixels(work, BlockAt(g.width, g.height, b, x, y)));
    FillStep(g, b, work, x, y, avg);
    ModStep(x, b);
  }

  lemma AllVisited(g: Raster, b: nat, work: Raster, y: nat)
    requires g.Valid() && b > 0 && y >= g.height
    requires PassInv(g, b, work, 0, y)
    ensures work == MosaicOf(g, b)
  {
    var m := MosaicOf(g, b);
    forall py | 0 <= py < g.height
      ensures work.rows[py] == m.rows[py]
    {
      forall px | 0 <= px < g.width
        ensures work.rows[py][px] == m.rows[py][px]
      {
        DivMul(py, b);
      }
    }
  }
}

=== FILE: numbers.dfy ===
/**
 * Numbers as the effects receive them from `parseInt` / `parseFloat`, and
 * the `Math.min` / `Math.max` / `Math.abs` the effects compute with.
 */
module Numbers {

  /** A JavaScript number: `NaN`, or a finite value kept as an exact real. */
  datatype Num = NaN | Finite(v: real)

  /** `isNaN(p) || p < 0`: the parameter check of every filter effect. */
  predicate Rejected(p: Num)
  {
    p.NaN? || p.v < 0.0
  }

  /** The smaller of two integers, as the mosaic loops clip a block with `Math.min`. */
  function MinInt(a: int, b: int): int
  {
    if a <= b then a else b
  }

  function Abs(x: real): real
  {
    if x < 0.0 then -x else x
  }

  function Max(a: real, b: real): real
  {
    if a < b then b else a
  }

  function Min(a: real, b: real): real
  {
    if a < b then a else b
  }
}

=== FILE: registry.dfy ===
/**
 * The page script's side: the table of effect names, `drawEffect` and
 * `drawLastEffect` (dispatch, remembering the last effect, the alert paths),
 * the parameter panels, and the synchronous redraw each UI event triggers.
 * Every call site passes no `isOverlap`, so every effect runs with overlap
 * off.
 */
module Registry {
  import opened Numbers
  import opened Surface
  import opened Effects

  datatype Option<T> = None | Some(value: T)

  /** The ten keys of `EFFECTS`. */
  datatype EffectId = Mosaic | Blur | DropShadow | Simple(kind: SimpleKind)

  /** The string value of each `EFFECTS` entry. */
  function Name(e: EffectId): string
  {
    match e
    case Mosaic => "mosaic"
    case Blur => "blur"
    case DropShadow => "dropShadow"
    case Simple(Brightness) => "brightness"
    case Simple(Contrast) => "contrast"
    case Simple(Grayscale) => "grayscale"
    case Simple(HueRotate) => "hueRotate"
    case Simple(Invert) => "invert"
    case Simple(Opacity) => "opacity"
    case Simple(Saturate) => "saturate"
  }

  /** `EFFECT_FUNCTIONS[key]`: the effect registered under a string, if any. */
  function Lookup(key: string): (r: Option<EffectId>)
    ensures r.Some? ==> Name(r.value) == key
  {
    if key == "mosaic" then Some(Mosaic)
    else if key == "blur" then Some(Blur)
    else if key == "brightness" then Some(Simple(Brightness))
    else if key == "contrast" then Some(Simple(Contrast))
    else if key == "dropShadow" then Some(DropShadow)
    else if key == "grayscale" then Some(Simple(Grayscale))
    else if key == "hueRotate" then Some(Simple(HueRotate))
    else if key == "invert" then Some(Simple(Invert))
    else if key == "opacity" then Some(Simple(Opacity))
    else if key == "saturate" then Some(Simple(Saturate))
    else None
  }

  /** Every effect is registered under its own name, so names and effects correspond one to one. */
  lemma LookupName(e: EffectId)
    ensures Lookup(Name(e)) == Some(e)
  {
  }

  lemma NameInjective(e1: EffectId, e2: EffectId)
    ensures Name(e1) == Name(e2) <==> e1 == e2
  {
    LookupName(e1);
    LookupName(e2);
  }

  // ---------------------------------------------------------------------------
  // Dispatch.

  /** `lastDrawEffect` when the page loads. */
  const InitialLast: string := "mosaic"

  /**
   * The outcome of `drawEffect(key)`: the new `lastDrawEffect`, the effect
   * function invoked, and whether an alert is shown.
   */
  datatype Dispatch = Dispatch(last: string, invoked: Option<EffectId>, alert: bool)

  /**
   * `drawEffect(key)`. A registered key is remembered before its function
   * is called; an exception thrown synchronously by that function is caught
   * and alerted, and the key stays remembered. The mosaic entry is the
   * async `drawEffectAsync`, whose errors reject its promise instead, so it
   * never reaches the catch block. An unknown key is alerted and changes
   * nothing. `throws` says whether the invoked function throws.
   */
  function DrawEffect(last: string, key: string, throws: bool): (d: Dispatch)
    ensures d.invoked.Some? <==> Lookup(key).Some?
    ensures d.invoked.None? ==> d.last == last && d.alert
  {
    match Lookup(key)
    case None => Dispatch(last, None, true)
    case Some(e) => Dispatch(key, Some(e), throws && e != Mosaic)
  }

  /** A registered key becomes the last effect and is the one invoked; only a synchronous throw alerts. */
  lemma DrawEffectRegistered(last: string, e: EffectId, throws: bool)
    ensures var d := DrawEffect(last, Name(e), throws);
      d.last == Name(e) && d.invoked == Some(e) && (d.alert <==> throws && e != Mosaic)
  {
    LookupName(e);
  }

  /** `drawLastEffect()`: `lastDrawEffect` is never null, so it always redraws it. */
  function DrawLastEffect(last: string, throws: bool): (d: Dispatch)
    ensures Lookup(last).Some? ==> d.last == last && d.invoked == Lookup(last)
  {
    DrawEffect(last, last, throws)
  }

  /** `lastDrawEffect` after a sequence of `drawEffect` calls with the given keys. */
  function LastAfter(last: string, keys: seq<string>): string
    decreases |keys|
  {
    if |keys| == 0 then last
    else LastAfter(DrawEffect(last, keys[0], false).last, keys[1..])
  }

  /**
   * `lastDrawEffect` starts registered and stays registered, whatever keys
   * are drawn, so `drawLastEffect` never hits the unknown-effect alert.
   */
  lemma {:induction false} LastStaysRegistered(last: string, keys: seq<string>)
    requires Lookup(last).Some?
    ensures Lookup(LastAfter(last, keys)).Some?
    ensures !DrawLastEffect(LastAfter(last, keys), false).alert
    decreases |keys|
  {
    if |keys| > 0 {
      var d := DrawEffect(last, keys[0], false);
      assert Lookup(d.last).Some?;
      LastStaysRegistered(d.last, keys[1..]);
    }
  }

  /**
   * From the page's initial `lastDrawEffect`, the mosaic, whatever keys are
   * drawn, the remembered key stays registered and redrawing it never alerts.
   */
  lemma PageLastStaysRegistered(keys: seq<string>)
    ensures Lookup(InitialLast) == Some(Mosaic)
    ensures Lookup(LastAfter(InitialLast, keys)).Some?
    ensures !DrawLastEffect(LastAfter(InitialLast, keys), false).alert
  {
    LookupName(Mosaic);
    LastStaysRegistered(InitialLast, keys);
  }

  /** The effect redrawn after any history of selections is the one selected last with a registered key. */
  lemma {:induction false} LastIsLatestRegistered(last: string, keys: seq<string>, i: nat)
    requires i < |keys| && Lookup(keys[i]).Some?
    requires forall j :: i < j < |keys| ==> Lookup(keys[j]).None?
    ensures LastAfter(last, keys) == keys[i]
    decreases |keys|
  {
    var d := DrawEffect(last, keys[0], false);
    if i == 0 {
      UnknownKeysKeepLast(d.last, keys[1..]);
    } else {
      LastIsLatestRegistered(d.last, keys[1..], i - 1);
    }
  }

  lemma {:induction false} UnknownKeysKeepLast(last: string, keys: seq<string>)
    requires forall j :: 0 <= j < |keys| ==> Lookup(keys[j]).None?
    ensures LastAfter(last, keys) == last
    decreases |keys|
  {
    if |keys| > 0 {
      UnknownKeysKeepLast(last, keys[1..]);
    }
  }

  // ---------------------------------------------------------------------------
  // Parameter panels.

  /**
   * `showEffectParameters(sel)`: among the effects whose panel element
   * exists (`present`), exactly the one named `sel` is displayed; other
   * entries of `display` are left as they were.
   */
  function ShowEffectParameters(present: set<EffectId>, display: map<EffectId, bool>, sel: string): (r: map<EffectId, bool>)
    ensures r.Keys == display.Keys + present
    ensures forall e :: e in present ==> r[e] == (Name(e) == sel)
    ensures forall e :: e in display.Keys && e !in present ==> r[e] == display[e]
  {
    map e | e in display.Keys + present :: if e in present then Name(e) == sel else display[e]
  }

  /** Selecting a registered effect whose panel exists shows that panel and hides every other one. */
  lemma OnePanelShown(present: set<EffectId>, display: map<EffectId, bool>, e: EffectId)
    requires e in present
    ensures var r := ShowEffectParameters(present, display, Name(e));
      forall x :: x in present ==> (r[x] <==> x == e)
  {
    forall x | x in present
      ensures ShowEffectParameters(present, display, Name(e))[x] <==> x == e
    {
      NameInjective(x, e);
    }
  }

  // ---------------------------------------------------------------------------
  // The synchronous redraw.

  /** Every effect's current parameters as the sliders, checkbox and colour picker set them. */
  datatype Params = Params(
    blurSize: Num, isScaling: bool,
    offsetX: Num, offsetY: Num, radius: Num, color: string,
    brightness: Num, contrast: Num, grayscale: Num, hueRotate: Num,
    invert: Num, opacity: Num, saturate: Num)

  function Rate(p: Params, kind: SimpleKind): Num
  {
    match kind
    case Brightness => p.brightness
    case Contrast => p.contrast
    case Grayscale => p.grayscale
    case HueRotate => p.hueRotate
    case Invert => p.invert
    case Opacity => p.opacity
    case Saturate => p.saturate
  }

  /**
   * The synchronous part of invoking an effect with overlap off. The
   * mosaic's async entry does nothing to the visible canvas before its
   * first await; its writes are the controller's.
   */
  function Apply(s: ShowImage, e: EffectId, p: Params): (r: ShowImage)
    requires s.scale > 0.0
    ensures r.scale == s.scale && r.showable == s.showable && r.imageW == s.imageW && r.imageH == s.imageH
  {
    match e
    case Mosaic => s
    case Blur => DrawBlur(s, p.blurSize, p.isScaling, false)
    case DropShadow => DrawDropShadow(s, p.offsetX, p.offsetY, p.radius, p.color, false)
    case Simple(kind) => DrawSimple(s, kind, Rate(p, kind), false)
  }

  /** When a synchronous effect draws: the parameter checks of each `drawEffect`. */
  predicate Accepts(e: EffectId, p: Params)
  {
    match e
    case Mosaic => false
    case Blur => !Rejected(p.blurSize)
    case DropShadow => p.offsetX.Finite? && p.offsetY.Finite? && !Rejected(p.radius)
    case Simple(kind) => !Rejected(Rate(p, kind))
  }

  /** The filter each effect draws with, in the units the context receives. */
  function FilterOf(e: EffectId, p: Params, scale: real): Filter
    requires Accepts(e, p)
  {
    match e
    case Blur => BlurFilter(p.blurSize.v)
    case DropShadow => DropShadowFilter(p.offsetX.v * scale, p.offsetY.v * scale, p.radius.v, p.color)
    case Simple(kind) => SimpleFilter(kind, Rate(p, kind).v)
  }

  /**
   * Each effect either leaves the canvas exactly as it was (image not
   * showable, parameter rejected, or the mosaic's async entry) or leaves on
   * it one image drawn with its own filter and nothing else.
   */
  lemma ApplyDrawsOnce(s: ShowImage, e: EffectId, p: Params)
    requires s.scale > 0.0
    ensures var r := Apply(s, e, p);
      && (!s.showable || !Accepts(e, p) ==> r == s)
      && (s.showable && Accepts(e, p) ==> |r.drawn| == 1 && r.drawn[0].DrawImage? && r.drawn[0].filter == FilterOf(e, p, s.scale))
  {
    if s.showable && Accepts(e, p) {
      match e
      case Blur => BlurGeometry(s, p.blurSize.v, p.isScaling, false);
      case DropShadow =>
      case Simple(kind) =>
    }
  }

  /**
   * Effects never stack: a drawing effect's result does not depend on what
   * the canvas showed before, so switching effects or editing a parameter
   * always starts from the plain image.
   */
  lemma NoStacking(s1: ShowImage, s2: ShowImage, e: EffectId, p: Params)
    requires s1.scale > 0.0 && SameImage(s1, s2) && s1.showable && Accepts(e, p)
    ensures Apply(s1, e, p) == Apply(s2, e, p)
  {
    match e
    case Blur =>
      BlurIgnoresOverlap(s1, s2, p.blurSize, p.isScaling);
      BlurIgnoresOverlap(s2, s2, p.blurSize, p.isScaling);
    case DropShadow =>
      DropShadowIgnoresOverlap(s1, s2, p.offsetX, p.offsetY, p.radius, p.color);
      DropShadowIgnoresOverlap(s2, s2, p.offsetX, p.offsetY, p.radius, p.color);
    case Simple(kind) => SimpleNoStacking(s1, s2, kind, Rate(p, kind));
  }

  /**
   * A radio button change: show the selected panel, rescale the canvas
   * (which clears it), then `drawEffect(key)`. A registered key becomes the
   * last effect; the canvas has the scaled image's size unless blur or drop
   * shadow laid it out anew, and shows the selected effect's one image, or
   * nothing when that effect draws nothing. An unknown key alerts and
   * leaves the rescaled, blank canvas. The synchronous effects are taken
   * not to throw, so only an unknown key alerts.
   */
  function SelectEffect(s: ShowImage, last: string, key: string, p: Params): (r: (ShowImage, Dispatch))
    requires s.scale > 0.0
    ensures r.1.invoked == Lookup(key)
    ensures r.1.last == (if Lookup(key).Some? then key else last)
    ensures r.1.alert <==> Lookup(key).None?
    ensures Lookup(key).None? ==>
      r.1.alert && r.0.drawn == [] && r.0.canvasW == s.imageW * s.scale && r.0.canvasH == s.imageH * s.scale
    ensures Lookup(key).Some? ==> var e := Lookup(key).value;
      && (e != Blur && e != DropShadow ==> r.0.canvasW == s.imageW * s.scale && r.0.canvasH == s.imageH * s.scale)
      && (s.showable && Accepts(e, p) ==> |r.0.drawn| == 1 && r.0.drawn[0].DrawImage? && r.0.drawn[0].filter == FilterOf(e, p, s.scale))
      && (!s.showable || !Accepts(e, p) ==> r.0.drawn == [])
  {
    var d := DrawEffect(last, key, false);
    var scaled := ScaleCanvas(s);
    if d.invoked.Some? then
      ApplyDrawsOnce(scaled, d.invoked.value, p);
      (Apply(scaled, d.invoked.value, p), d)
    else
      (scaled, d)
  }

  /**
   * `image.onload`: rescale the canvas to the new image, mark it showable,
   * and redraw the last effect.
   */
  function ImageLoaded(s: ShowImage, imageW: real, imageH: real, last: string, p: Params): (r: (ShowImage, Dispatch))
    requires s.scale > 0.0
    ensures r.0.showable && r.0.imageW == imageW && r.0.imageH == imageH
  {
    var loaded := ScaleCanvas(s.(imageW := imageW, imageH := imageH)).(showable := true);
    var d := DrawLastEffect(last, false);
    (if d.invoked.Some? then Apply(loaded, d.invoked.value, p) else loaded, d)
  }

  /**
   * After selecting an effect the canvas has the size of the scaled image
   * or, for blur and drop shadow, the size their layout asks for; what it
   * shows is that one effect only, or nothing when the effect draws
   * nothing.
   */
  lemma SelectShowsOnlySelected(s: ShowImage, last: string, e: EffectId, p: Params)
    requires s.scale > 0.0
    ensures var (r, d) := SelectEffect(s, last, Name(e), p);
      && d.last == Name(e)
      && (e != Blur && e != DropShadow ==> r.canvasW == s.imageW * s.scale && r.canvasH == s.imageH * s.scale)
      && (s.showable && Accepts(e, p) ==> |r.drawn| == 1 && r.drawn[0].filter == FilterOf(e, p, s.scale))
      && (!s.showable || !Accepts(e, p) ==> r.drawn == [])
  {
    LookupName(e);
    var scaled := ScaleCanvas(s);
    ApplyDrawsOnce(scaled, e, p);
  }

  /**
   * A freshly loaded image redraws the last effect without an alert: a
   * synchronous effect whose parameters are accepted shows its one image
   * at once; otherwise (the mosaic, whose block pass writes later, or a
   * rejected parameter) the canvas is the rescaled, blank image area.
   */
  lemma LoadShowsLastEffect(s: ShowImage, imageW: real, imageH: real, e: EffectId, p: Params)
    requires s.scale > 0.0
    ensures var (r, d) := ImageLoaded(s, imageW, imageH, Name(e), p);
      && d.invoked == Some(e) && !d.alert && d.last == Name(e)
      && (Accepts(e, p) ==> |r.drawn| == 1 && r.drawn[0].filter == FilterOf(e, p, s.scale))
      && (!Accepts(e, p) ==> r.drawn == [] && r.canvasW == imageW * s.scale && r.canvasH == imageH * s.scale)
  {
    LookupName(e);
    var loaded := ScaleCanvas(s.(imageW := imageW, imageH := imageH)).(showable := true);
    ApplyDrawsOnce(loaded, e, p);
  }

  /** Before any image loads, every effect leaves the new canvas untouched. */
  lemma NothingBeforeLoad(canvasW: real, canvasH: real, e: EffectId, p: Params)
    ensures Apply(NewShowImage(canvasW, canvasH), e, p) == NewShowImage(canvasW, canvasH)
  {
    ApplyDrawsOnce(NewShowImage(canvasW, canvasH), e, p);
  }
}

=== FILE: surface.dfy ===
/**
 * The visible canvas (`ShowImage`): its device size, the scale its context
 * is set to, the loaded image's logical size, the readiness flag, and what
 * has been drawn on it since its bitmap was last cleared.
 */
module Surface {

  /** The `ctx.filter` an image is drawn with; parameters as the filter string carries them. */
  datatype Filter =
    | NoFilter
    | BlurFilter(px: real)
    | BrightnessFilter(amount: real)
    | ContrastFilter(percent: real)
    | DropShadowFilter(dx: real, dy: real, radius: real, color: string)
    | GrayscaleFilter(percent: real)
    | HueRotateFilter(degrees: real)
    | InvertFilter(percent: real)
    | OpacityFilter(percent: real)
    | SaturateFilter(percent: real)

  /** One drawing call that leaves pixels on the canvas. */
  datatype Op =
    | DrawImage(filter: Filter, x: real, y: real)   // `drawImage(image, x, y)` in logical units

  datatype Rect = Rect(x: real, y: real, w: real, h: real)

  datatype ShowImage = ShowImage(
    canvasW: real, canvasH: real,   // `canvas.width` / `canvas.height`, device pixels
    scale: real,                    // the context transform is `scale(scale, scale)`
    imageW: real, imageH: real,     // the loaded image, logical pixels
    showable: bool,                 // `isShowableImage`
    drawn: seq<Op>)                 // drawing calls since the bitmap was last cleared

  /**
   * `new ShowImage(canvas, ctx)`: nothing loaded yet (an empty `Image`), not
   * showable, scale 1, blank canvas.
   */
  function NewShowImage(canvasW: real, canvasH: real): (s: ShowImage)
    ensures !s.showable && s.scale == 1.0
    ensures s.imageW == 0.0 && s.imageH == 0.0 && s.drawn == []
    ensures s.canvasW == canvasW && s.canvasH == canvasH
  {
    ShowImage(canvasW, canvasH, 1.0, 0.0, 0.0, false, [])
  }

  /**
   * The logical rectangle `clearRect()` passes to the context. Under the
   * `scale(scale, scale)` transform it is exactly the whole canvas.
   */
  function ClearArea(s: ShowImage): (r: Rect)
    requires s.scale > 0.0
    ensures r.x == 0.0 && r.y == 0.0
    ensures r.w * s.scale == s.canvasW && r.h * s.scale == s.canvasH
  {
    Rect(0.0, 0.0, s.canvasW / s.scale, s.canvasH / s.scale)
  }

  /** `ShowImage.clearRect()`: the area covers the canvas, so nothing drawn before survives. */
  function ClearRect(s: ShowImage): (r: ShowImage)
    requires s.scale > 0.0
    ensures r.drawn == [] && r == s.(drawn := [])
  {
    var _ := ClearArea(s);
    s.(drawn := [])
  }

  /**
   * Assigning `canvas.width` and `canvas.height` (then resetting the
   * transform to `scale`): the canvas takes the new size and its bitmap is
   * reset to transparent, as assigning either dimension always does.
   */
  function Resize(s: ShowImage, w: real, h: real): (r: ShowImage)
    ensures r.canvasW == w && r.canvasH == h && r.drawn == []
    ensures r.scale == s.scale && r.imageW == s.imageW && r.imageH == s.imageH && r.showable == s.showable
  {
    s.(canvasW := w, canvasH := h, drawn := [])
  }

  /** One drawing call on top of what the canvas already shows. */
  function Draw(s: ShowImage, op: Op): (r: ShowImage)
    ensures r.drawn == s.drawn + [op] && r == s.(drawn := s.drawn + [op])
  {
    s.(drawn := s.drawn + [op])
  }

  /** `scaleCanvas`: the canvas becomes the image size times the scale, on both axes. */
  function ScaleCanvas(s: ShowImage): (r: ShowImage)
    ensures r.canvasW == s.imageW * s.scale && r.canvasH == s.imageH * s.scale
    ensures r.drawn == [] && r.scale == s.scale && r.showable == s.showable
  {
    Resize(s, s.imageW * s.scale, s.imageH * s.scale)
  }

  /** After `scaleCanvas`, `clearRect()` clears exactly the image's logical area. */
  lemma ScaledClearArea(s: ShowImage)
    requires s.scale > 0.0
    ensures ClearArea(ScaleCanvas(s)) == Rect(0.0, 0.0, s.imageW, s.imageH)
  {
    var r := ScaleCanvas(s);
    assert (s.imageW * s.scale) / s.scale == s.imageW;
    assert (s.imageH * s.scale) / s.scale == s.imageH;
  }
}

=== FILE: tiling.dfy ===
/**
 * The block grid of a mosaic pass: the nested loops of
 * `MosaicEffect.drawEffect` step `y` and then `x` by the block size over a
 * W x H device-pixel canvas, and each block is clipped at the right and
 * bottom edges to `min(b, W - x) x min(b, H - y)`.
 */
module Tiling {
  import opened Arith
  import opened Numbers

  datatype Block = Block(x: nat, y: nat, w: nat, h: nat)

  /** The block whose top-left device pixel is `(x, y)`. */
  function BlockAt(W: nat, H: nat, b: nat, x: nat, y: nat): Block
    requires x < W && y < H
  {
    Block(x, y, MinInt(b, W - x), MinInt(b, H - y))
  }

  predicate Contains(blk: Block, px: int, py: int)
  {
    blk.x <= px < blk.x + blk.w && blk.y <= py < blk.y + blk.h
  }

  /** A block the loops can visit: origin on the b-grid, inside the canvas, clipped at the edges. */
  predicate IsGridBlock(W: nat, H: nat, b: nat, blk: Block)
    requires b > 0
  {
    && blk.x < W && blk.y < H
    && blk.x % b == 0 && blk.y % b == 0
    && blk == BlockAt(W, H, b, blk.x, blk.y)
  }

  // ---------------------------------------------------------------------------
  // The block a pixel lies in, and the blocks the loops visit.

  /** The block containing device pixel `(px, py)`. */
  function BlockOf(W: nat, H: nat, b: nat, px: nat, py: nat): (blk: Block)
    requires b > 0 && px < W && py < H
    ensures IsGridBlock(W, H, b, blk) && Contains(blk, px, py)
  {
    DivMul(px, b);
    DivMul(py, b);
    BlockAt(W, H, b, (px / b) * b, (py / b) * b)
  }

  /**
   * A pixel lies in a grid block exactly when that block is the pixel's
   * block: no two grid blocks share a pixel, and the grid covers the canvas.
   */
  lemma ContainsIff(W: nat, H: nat, b: nat, blk: Block, px: nat, py: nat)
    requires b > 0 && px < W && py < H && IsGridBlock(W, H, b, blk)
    ensures Contains(blk, px, py) <==> blk == BlockOf(W, H, b, px, py)
  {
    if Contains(blk, px, py) {
      OriginOf(px, blk.x, b);
      OriginOf(py, blk.y, b);
    }
  }

  /** The blocks of row `y` from column `x` on, left to right (the inner loop). */
  function RowBlocks(W: nat, H: nat, b: nat, x: nat, y: nat): seq<Block>
    requires b > 0 && y < H
    decreases W - x
  {
    if x >= W then [] else [BlockAt(W, H, b, x, y)] + RowBlocks(W, H, b, x + b, y)
  }

  /** The blocks of rows `y`, `y + b`, ... (the outer loop). */
  function BlocksFrom(W: nat, H: nat, b: nat, y: nat): seq<Block>
    requires b > 0
    decreases H - y
  {
    if y >= H then [] else RowBlocks(W, H, b, 0, y) + BlocksFrom(W, H, b, y + b)
  }

  /** Every block one pass visits, in the order it visits them. */
  function Blocks(W: nat, H: nat, b: nat): seq<Block>
    requires b > 0
  {
    BlocksFrom(W, H, b, 0)
  }

  /** Row-major order of block origins: top to bottom, then left to right. */
  predicate Before(p: Block, q: Block)
  {
    p.y < q.y || (p.y == q.y && p.x < q.x)
  }

  predicate Ordered(s: seq<Block>)
  {
    forall i, j :: 0 <= i < j < |s| ==> Before(s[i], s[j])
  }

  lemma OrderedDistinct(s: seq<Block>, i: nat, j: nat)
    requires Ordered(s) && i < |s| && j < |s| && i != j
    ensures s[i] != s[j]
  {
    if i < j { assert Before(s[i], s[j]); } else { assert Before(s[j], s[i]); }
  }

  lemma {:induction false} RowBlocksShape(W: nat, H: nat, b: nat, x: nat, y: nat)
    requires b > 0 && y < H && x % b == 0 && y % b == 0
    ensures forall blk :: blk in RowBlocks(W, H, b, x, y) ==> IsGridBlock(W, H, b, blk) && blk.y == y && blk.x >= x
    ensures Ordered(RowBlocks(W, H, b, x, y))
    decreases W - x
  {
    if x < W {
      ModStep(x, b);
      RowBlocksShape(W, H, b, x + b, y);
    }
  }

  lemma {:induction false} BlocksFromShape(W: nat, H: nat, b: nat, y: nat)
    requires b > 0 && y % b == 0
    ensures forall blk :: blk in BlocksFrom(W, H, b, y) ==> IsGridBlock(W, H, b, blk) && blk.y >= y
    ensures Ordered(BlocksFrom(W, H, b, y))
    decreases H - y
  {
    if y < H {
      RowBlocksShape(W, H, b, 0, y);
      ModStep(y, b);
      BlocksFromShape(W, H, b, y + b);
      var row, rest := RowBlocks(W, H, b, 0, y), BlocksFrom(W, H, b, y + b);
      assert forall i :: 0 <= i < |row| ==> row[i] in row;
      assert forall j :: 0 <= j < |rest| ==> rest[j] in rest;
    }
  }

  lemma {:induction false} RowBlocksComplete(W: nat, H: nat, b: nat, x0: nat, x: nat, y: nat)
    requires b > 0 && y < H && x0 % b == 0 && x % b == 0 && x0 <= x < W
    ensures BlockAt(W, H, b, x, y) in RowBlocks(W, H, b, x0, y)
    decreases x - x0
  {
    if x0 < x {
      NextMultiple(x0, x, b);
      ModStep(x0, b);
      RowBlocksComplete(W, H, b, x0 + b, x, y);
    }
  }

  lemma {:induction false} BlocksFromComplete(W: nat, H: nat, b: nat, y0: nat, blk: Block)
    requires b > 0 && y0 % b == 0 && IsGridBlock(W, H, b, blk) && y0 <= blk.y
    ensures blk in BlocksFrom(W, H, b, y0)
    decreases blk.y - y0
  {
    if y0 == blk.y {
      RowBlocksComplete(W, H, b, 0, blk.x, blk.y);
    } else {
      NextMultiple(y0, blk.y, b);
      ModStep(y0, b);
      BlocksFromComplete(W, H, b, y0 + b, blk);
    }
  }

  /** The pass visits exactly the grid blocks. */
  lemma BlocksAreGridBlocks(W: nat, H: nat, b: nat, blk: Block)
    requires b > 0
    ensures blk in Blocks(W, H, b) <==> IsGridBlock(W, H, b, blk)
  {
    BlocksFromShape(W, H, b, 0);
    if IsGridBlock(W, H, b, blk) {
      BlocksFromComplete(W, H, b, 0, blk);
    }
  }

  /**
   * The tiling of one pass: each block has its origin on the b-grid, lies
   * inside the canvas and is clipped to `min(b, W - x) x min(b, H - y)`;
   * blocks come in row-major order, so none is visited twice; two distinct
   * blocks share no pixel; and every pixel of the canvas lies in exactly one
   * block.
   */
  lemma Tiles(W: nat, H: nat, b: nat)
    requires b > 0
    ensures forall blk :: blk in Blocks(W, H, b) ==>
      && blk.x % b == 0 && blk.y % b == 0
      && blk.w == MinInt(b, W - blk.x) && blk.h == MinInt(b, H - blk.y)
      && 0 < blk.w && 0 < blk.h && blk.x + blk.w <= W && blk.y + blk.h <= H
    ensures Ordered(Blocks(W, H, b))
    ensures forall i, j, px, py ::
      (0 <= i < |Blocks(W, H, b)| && 0 <= j < |Blocks(W, H, b)| && i != j && Contains(Blocks(W, H, b)[i], px, py))
      ==> !Contains(Blocks(W, H, b)[j], px, py)
    ensures forall px: nat, py: nat :: px < W && py < H ==>
      BlockOf(W, H, b, px, py) in Blocks(W, H, b)
  {
    BlocksFromShape(W, H, b, 0);
    var s := Blocks(W, H, b);
    forall i, j, px, py | 0 <= i < |s| && 0 <= j < |s| && i != j && Contains(s[i], px, py)
      ensures !Contains(s[j], px, py)
    {
      assert s[i] in s && s[j] in s;
      OrderedDistinct(s, i, j);
      ContainsIff(W, H, b, s[i], px, py);
      ContainsIff(W, H, b, s[j], px, py);
    }
    forall px: nat, py: nat | px < W && py < H
      ensures BlockOf(W, H, b, px, py) in s
    {
      BlocksAreGridBlocks(W, H, b, BlockOf(W, H, b, px, py));
    }
  }

  // ---------------------------------------------------------------------------
  // How many blocks a pass visits.

  /** `ceil(n / b)`: the number of b-wide strides that start below `n`. */
  function CeilDiv(n: nat, b: nat): nat
    requires b > 0
  {
    (n + b - 1) / b
  }

  lemma CeilStep(n: nat, b: nat)
    requires b > 0 && n > 0
    ensures CeilDiv(n, b) == 1 + (if n <= b then 0 else CeilDiv(n - b, b))
  {
    if n <= b {
      DivUnique(n + b - 1, b, 1, n - 1);
    } else {
      var m := n - b;
      var q, r := (m + b - 1) / b, (m + b - 1) % b;
      assert n + b - 1 == (q + 1) * b + r;
      DivUnique(n + b - 1, b, q + 1, r);
    }
  }

  lemma {:induction false} RowBlocksCount(W: nat, H: nat, b: nat, x: nat, y: nat)
    requires b > 0 && y < H
    ensures |RowBlocks(W, H, b, x, y)| == (if x >= W then 0 else CeilDiv(W - x, b))
    decreases W - x
  {
    if x < W {
      CeilStep(W - x, b);
      RowBlocksCount(W, H, b, x + b, y);
    }
  }

  lemma {:induction false} BlocksFromCount(W: nat, H: nat, b: nat, y: nat)
    requires b > 0
    ensures |BlocksFrom(W, H, b, y)| == (if y >= H then 0 else CeilDiv(W, b) * CeilDiv(H - y, b))
    decreases H - y
  {
    if y < H {
      FullRowCount(W, H, b, y);
      BlocksFromCount(W, H, b, y + b);
      RowsArith(CeilDiv(W, b), H - y, b, |BlocksFrom(W, H, b, y + b)|);
    }
  }

  /** A whole row has `ceil(W / b)` blocks. */
  lemma FullRowCount(W: nat, H: nat, b: nat, y: nat)
    requires b > 0 && y < H
    ensures |RowBlocks(W, H, b, 0, y)| == CeilDiv(W, b)
  {
    RowBlocksCount(W, H, b, 0, y);
    if W == 0 {
      DivUnique(b - 1, b, 0, b - 1);
    }
  }

  /** One row of `c` blocks on top of the rows below adds up to `c * ceil(n / b)`. */
  lemma RowsArith(c: nat, n: nat, b: nat, below: nat)
    requires b > 0 && n > 0
    requires below == (if n <= b then 0 else c * CeilDiv(n - b, b))
    ensures c + below == c * CeilDiv(n, b)
  {
    CeilStep(n, b);
    if n > b {
      MulSucc(CeilDiv(n - b, b), c);
    }
  }

  /** A pass visits `ceil(W / b) * ceil(H / b)` blocks. */
  lemma BlockCount(W: nat, H: nat, b: nat)
    requires b > 0
    ensures |Blocks(W, H, b)| == CeilDiv(W, b) * CeilDiv(H, b)
  {
    BlocksFromCount(W, H, b, 0);
  }

  /** When `b` divides both sides there are `(W/b) * (H/b)` blocks, every one a full `b x b` block. */
  lemma DividingBlockSize(W: nat, H: nat, b: nat)
    requires b > 0 && W % b == 0 && H % b == 0
    ensures |Blocks(W, H, b)| == (W / b) * (H / b)
    ensures forall blk :: blk in Blocks(W, H, b) ==> blk.w == b && blk.h == b
  {
    DividingCount(W, H, b);
    forall blk | blk in Blocks(W, H, b)
      ensures blk.w == b && blk.h == b
    {
      FullBlock(W, H, b, blk);
    }
  }

  lemma FullBlock(W: nat, H: nat, b: nat, blk: Block)
    requires b > 0 && W % b == 0 && H % b == 0 && blk in Blocks(W, H, b)
    ensures blk.w == b && blk.h == b
  {
    BlocksAreGridBlocks(W, H, b, blk);
    FullSide(blk.x, blk.w, W, b);
    FullSide(blk.y, blk.h, H, b);
  }

  lemma DividingCount(W: nat, H: nat, b: nat)
    requires b > 0 && W % b == 0 && H % b == 0
    ensures |Blocks(W, H, b)| == (W / b) * (H / b)
  {
    BlockCount(W, H, b);
    ExactCeil(W, b);
    ExactCeil(H, b);
  }

  lemma ExactCeil(n: nat, b: nat)
    requires b > 0 && n % b == 0
    ensures CeilDiv(n, b) == n / b
  {
    DivMul(n, b);
    DivUnique(n + b - 1, b, n / b, b - 1);
  }

  /** On a side that is a multiple of `b`, a clipped block side starting on the grid is never clipped. */
  lemma FullSide(x: nat, w: nat, W: nat, b: nat)
    requires b > 0 && W % b == 0 && x % b == 0 && x < W && w == MinInt(b, W - x)
    ensures w == b
  {
    NextMultiple(x, W, b);
  }

  /** A 100 x 100 canvas with block size 10 is split into exactly 100 blocks ... */
  lemma EvenSplitCount(W: nat, H: nat, b: nat)
    requires W == 100 && H == 100 && b == 10
    ensures |Blocks(W, H, b)| == 100
  {
    DividingCount(W, H, b);
    TenTens(W, b);
    TenTens(H, b);
  }

  /** ... and every one of them is a full 10 x 10 block. */
  lemma EvenSplitSizes(W: nat, H: nat, b: nat)
    requires W == 100 && H == 100 && b == 10
    ensures forall blk :: blk in Blocks(W, H, b) ==> blk.w == 10 && blk.h == 10
  {
    TenTens(W, b);
    TenTens(H, b);
    forall blk | blk in Blocks(W, H, b)
      ensures blk.w == b && blk.h == b
    {
      FullBlock(W, H, b, blk);
    }
  }

  lemma TenTens(n: nat, b: nat)
    requires n == 100 && b == 10
    ensures n / b == 10 && n % b == 0
  {
  }

  /** Block size 7 on a 20 x 20 canvas: nine blocks, the last column and row clipped to 6. */
  lemma ClippedSplitScenario(W: nat, H: nat, b: nat)
    requires W == 20 && H == 20 && b == 7
    ensures |Blocks(W, H, b)| == 9
    ensures forall blk :: blk in Blocks(W, H, b) ==>
      blk.w == (if blk.x == 14 then 6 else 7) && blk.h == (if blk.y == 14 then 6 else 7)
    ensures Block(14, 14, 6, 6) in Blocks(W, H, b)
  {
    BlockCount(W, H, b);
    assert CeilDiv(W, b) == 3;
    Tiles(W, H, b);
    forall blk | blk in Blocks(W, H, b)
      ensures blk.w == (if blk.x == 14 then 6 else 7) && blk.h == (if blk.y == 14 then 6 else 7)
    {
      SevenGrid(blk.x);
      SevenGrid(blk.y);
    }
    BlocksAreGridBlocks(W, H, b, Block(14, 14, 6, 6));
  }

  lemma SevenGrid(x: nat)
    requires x % 7 == 0 && x < 20
    ensures x == 0 || x == 7 || x == 14
  {
  }
}

=== FILE: yieldcounter.dfy ===
/**
 * The frame-yield counter of a mosaic pass: after each block the pass adds
 * `blockSize * blockSize` to a pixel counter, and once the counter exceeds
 * 5000 it subtracts 5000 and waits for the next animation frame.
 */
module YieldCounter {
  import opened Arith

  /** `piexelCountThreshold` in `MosaicEffect.drawEffect`. */
  const Threshold: nat := 5000

  /**
   * The counter over a pass of `blocks` blocks. Because the threshold is
   * subtracted instead of the counter being reset, nothing is lost: the
   * frames and the final counter account for every pixel unit added.
   */
  method CountYields(blocks: nat, blockSize: nat) returns (pixelCount: nat, frames: nat)
    ensures frames * Threshold + pixelCount == blocks * (blockSize * blockSize)
    ensures blockSize * blockSize <= Threshold ==> pixelCount <= Threshold
    ensures blockSize * blockSize <= Threshold && blocks * (blockSize * blockSize) > 0 ==>
      frames == (blocks * (blockSize * blockSize) - 1) / Threshold
    ensures blockSize * blockSize > Threshold ==> frames == blocks
  {
    var blockUnitSize := blockSize * blockSize;
    pixelCount, frames := 0, 0;
    var i := 0;
    while i < blocks
      invariant i <= blocks
      invariant frames * Threshold + pixelCount == i * blockUnitSize
      invariant blockUnitSize <= Threshold ==> pixelCount <= Threshold
      invariant i * blockUnitSize > 0 ==> pixelCount > 0
      invariant blockUnitSize > Threshold ==> frames == i
    {
      MulSucc(i, blockUnitSize);
      pixelCount := pixelCount + blockUnitSize;
      if pixelCount > Threshold {
        pixelCount := pixelCount - Threshold;
        frames := frames + 1;
      }
      i := i + 1;
    }
    var total := blocks * blockUnitSize;
    assert frames * Threshold + pixelCount == total;
    if blockUnitSize <= Threshold && total > 0 {
      DivUnique(total - 1, Threshold, frames, pixelCount - 1);
    }
  }
}
